=== FILE: README.md ===
# Money manager: the balance-consistency engine

This project models the part of the money_manager ledger that keeps account balances in step with
transactions. In money_manager it is spread over three places:

- Four SQLite triggers on the `Transactions` table: insert, delete, and two AFTER UPDATE triggers.
  They move money between rows of `Accounts`.
- The FastAPI route handlers that fire those triggers: create a transaction, delete a batch of
  them, and import a bank statement.
- The account, category and tag handlers. They share a lookup / patch / delete shape and the
  generic patch merge `update_attributes`.

Amounts and balances are integers counted in cents. money_manager stores floats and applies
`ROUND(..., 2)`; on whole cents that rounding is the identity. Each trigger is a pure function
from the `Accounts.balance` column (a map from account id to cents) to a new one. A trigger that
reaches `RAISE(ABORT, msg)` gives `Err(Aborted(msg))`, and the statement is rolled back.

Route handlers are functions or methods from a `Ledger` (the four tables) to a `Response`. A
`Response` holds the committed ledger and either the return value or the `HTTPException` raised.
Every `HTTPException(...)` call in the routers raises, so each one is an early error return.

Modules follow the source files:

| module | models |
|---|---|
| `Triggers`, `TriggerLaws` | `core/triggers.py`, and the laws relating its four triggers |
| `Models` | `core/models.py`: `update_attributes`, the record shapes, the typed update payloads |
| `Store` | the `Transactions` table with its triggers: one INSERT, one DELETE |
| `KeyedStore`, `Collation`, `Rowids` | a table with a UNIQUE title; `ORDER BY title`; rowid allocation |
| `TransactionRoutes` | `routers/transactions.py` |
| `ImportRoutes` | `routers/import_statement.py` |
| `AccountRoutes`, `CategoryRoutes`, `TagRoutes` | `routers/account.py`, `routers/categories.py`, `routers/tags.py` |

Reading of the SQL:

- `UPDATE Accounts ... WHERE id = X` changes nothing when no row `X` exists, or when `X` is NULL.
  A `CASE` that would `RAISE` is therefore only reached when the row exists.
- The destination leg of every trigger depends only on `to_account_id` being non-NULL, whatever
  the transaction type. It uses `to_amount` when that is non-NULL and non-zero, otherwise `amount`.
- `amount` is NOT NULL, so the branches that need `amount IS NULL` cannot be reached. Those are
  the `RAISE(IGNORE)` of the insert and delete destination legs, and both `RAISE(ABORT)` of
  `Update_ToAccount_Balance`.
- `RAISE(IGNORE)` ends the trigger program that reaches it.

Behaviour a reader might expect but the code does not have, and the model does not either:

- The destination leg is keyed on `to_account_id` being non-NULL, not on the type being Transfer:
  a Deposit or Withdrawal with a `to_account_id` also moves money into that account.
- `create_transaction` checks none of the rows its payload refers to and does not check the
  amount; `import_statement` checks its account and category first
  (money_manager/routers/import_statement.py:41-42). Beyond that, the foreign keys of
  `Transactions` (money_manager/core/models.py:21-23) are the only guard, and the model leaves
  them out (see "## Left out"). So in the model, deleting an account or a category leaves its
  transactions in place, still naming it.
- Deleting a tag has no effect on transactions. The transaction schema has no tag column.

## Model

| member | source | states |
|---|---|---|
| Rowids.NextRowid | money_manager/core/models.py:18-20 | a new row's id is not in use: it is above every existing id, and 1 in an empty table |
| Triggers.ReadType | money_manager/core/triggers.py:37-44 | the triggers read `transaction_type` by comparing it with 'Withdrawal', 'Deposit' and 'Transfer'; a string is read as unrecognised exactly when it is none of the three, and the type read from a string stores that same string |
| Triggers.ReadTypeName | money_manager/core/triggers.py:37-44 | reading back the stored string of a type gives that type |
| Triggers.InsertTrigger | money_manager/core/triggers.py:31-58 | Withdrawal and Transfer debit `amount` from the source account and Deposit credits it; the destination account, if any, gains `to_amount` (non-zero) or `amount`, whatever the type; no other account changes; an unrecognised type on an existing account changes nothing |
| Triggers.DeleteTrigger | money_manager/core/triggers.py:1-29 | aborts exactly when the source account exists and the type is unrecognised; otherwise every account loses exactly the row's contribution |
| Triggers.UpdateNewAccount | money_manager/core/triggers.py:68-105 | on an existing new account: with the account unchanged, all nine recognised (new, old) type pairs give the new effect minus the old one, and it aborts when either type is unrecognised; with the account changed, the new effect alone, aborting when the new type is unrecognised; no other account moves |
| Triggers.UpdateOldAccount | money_manager/core/triggers.py:107-121 | when the account changed, the old account loses the old effect and an unknown old type aborts; when it did not, nothing happens |
| Triggers.UpdateSourceTrigger | money_manager/core/triggers.py:61-124 | aborts iff an existing source account carries an unrecognised old or new type; otherwise every account loses its old source effect and gains its new one |
| Triggers.UpdateToAccountTrigger | money_manager/core/triggers.py:126-158 | the new destination account gains the new leg, the old destination account loses the old leg, nothing happens on a NULL side, and it never aborts |
| TriggerLaws.DeleteUndoesInsert | money_manager/core/triggers.py:1-58 | inserting a row and deleting it again restores every balance exactly |
| TriggerLaws.UnrecognisedType | money_manager/core/triggers.py:37-46 | on an existing account, an unrecognised type makes insert change nothing while delete and update abort |
| TriggerLaws.UpdateSameAccount | money_manager/core/triggers.py:71-92 | with the account unchanged, the update reverses the old source effect and applies the new one on that account, for all nine type pairs |
| TriggerLaws.UpdateDifferentAccount | money_manager/core/triggers.py:94-121 | with the account changed, the new account receives only the new effect, the old account only the reversal of the old one, and no other balance moves |
| TriggerLaws.UpdateIsDeleteThenInsert | money_manager/core/triggers.py:61-157 | an update aborts when the delete of the old row would abort or the new type is unrecognised on an existing account; otherwise it commits exactly the delete trigger on the old row followed by the insert trigger on the new row |
| TriggerLaws.UpdateTriggerOrderIrrelevant | money_manager/core/triggers.py:61-157 | the two AFTER UPDATE triggers give the same outcome, error message included, in either firing order |
| TriggerLaws.SourceAbortIgnoresBalances | money_manager/core/triggers.py:68-121 | whether the source-leg trigger aborts, and with which message, depends only on which accounts exist |
| TriggerLaws.UpdateWithoutMoneyChange | money_manager/core/triggers.py:61-157 | an update that keeps account, destination, type, amount and to_amount leaves every balance unchanged, or aborts when the type is unrecognised |
| Models.MergeFields | money_manager/core/models.py:62-72 | a visited field with a non-None source value takes that value, every other field keeps its own; the flag is true iff the result differs from the target |
| Models.UpdateAttributes | money_manager/core/models.py:51-72 | an object without `model_fields` leaves the target unchanged and returns false; otherwise None never overwrites, every non-None source field ends up in the target, and the result is true iff the target changed |
| Models.UpdateAttributesIdempotent | money_manager/core/models.py:62-72 | applying the same patch a second time returns false and changes nothing |
| Models.UpdateAttributesIs | money_manager/core/models.py:62-72 | any object that holds, field by field, what the loop writes is exactly the new target, and the flag says whether it differs from the old |
| Models.PatchAccount | money_manager/routers/account.py:19-23 | the patched account takes each present field, keeps each omitted one, and a present balance replaces the stored one; the flag is true iff the account changed |
| Models.PatchCategory | money_manager/routers/categories.py:90 | the patched category takes each present field and keeps each omitted one, so a patch cannot clear `parent_id`; the flag is true iff it changed |
| Models.PatchTag | money_manager/routers/tags.py:90 | a present title replaces the stored one and an omitted one keeps the tag; the flag is true iff the tag changed |
| Models.PatchAccountIsUpdateAttributes | money_manager/routers/account.py:74 | the typed account patch is exactly `update_attributes` on the encoded payload and stored row, flag included |
| Models.PatchCategoryIsUpdateAttributes | money_manager/routers/categories.py:90 | the typed category patch is exactly `update_attributes` on the encoded payload and stored row, flag included |
| Models.PatchTagIsUpdateAttributes | money_manager/routers/tags.py:90 | the typed tag patch is exactly `update_attributes` on the encoded payload and stored row, flag included |
| Collation.TextLeReflexive | money_manager/routers/account.py:27 | the title order relates every title to itself |
| Collation.TextLeTotal | money_manager/routers/account.py:27 | any two titles are ordered one way or the other |
| Collation.TextLeTransitive | money_manager/routers/account.py:27 | the title order is transitive |
| Collation.TextLeAntisymmetric | money_manager/routers/account.py:27 | two titles ordered both ways are equal |
| KeyedStore.Create | money_manager/routers/account.py:35-54 | the insert fails iff some row already has the title, and then nothing is stored; otherwise the row is stored under a fresh id and titles stay unique |
| KeyedStore.Update | money_manager/routers/account.py:63-96 | a missing id fails first, then a patch that changes nothing, then a title held by another row; otherwise only that row is replaced by its patched value and titles stay unique |
| KeyedStore.Delete | money_manager/routers/account.py:98-113 | a missing id fails; otherwise exactly that row is removed and the others are kept |
| KeyedStore.ListByTitle | money_manager/routers/account.py:25-33 | the listing holds every row exactly once, with its id, in ascending title order |
| KeyedStore.ListAll | money_manager/routers/tags.py:29-32 | the listing holds every row exactly once, with its id |
| Store.InsertRow | money_manager/routers/transactions.py:65-66 | the row is stored under a fresh id above all others, and every balance moves by the row's contribution, or none does when the type is unrecognised |
| Store.DeleteRow | money_manager/routers/transactions.py:126-127 | the DELETE aborts and is rolled back iff the delete trigger aborts; otherwise the row is gone and every balance gives back its contribution |
| Store.DeleteRowUndoesInsertRow | money_manager/core/triggers.py:1-58 | inserting a row of a recognised type and deleting it restores the whole ledger |
| TransactionRoutes.ListTransactions | money_manager/routers/transactions.py:33-36 | every transaction is listed exactly once, with its id |
| TransactionRoutes.CreateTransaction | money_manager/routers/transactions.py:53-74 | stores exactly the given fields under a fresh id, applies the insert effect to every account, and never fails |
| TransactionRoutes.HitsAndMissedSplitTheBatch | money_manager/routers/transactions.py:119-124 | every position of the batch is either deleted or skipped; the deleted ids are distinct and are exactly the batch's ids present in the table; every absent id is reported |
| TransactionRoutes.RepeatedIdIsSkipped | money_manager/routers/transactions.py:119-124 | a repeated id is reported as not found at its later occurrence |
| TransactionRoutes.SkipStep | money_manager/routers/transactions.py:122-124 | an id the table no longer holds is appended to the skipped list and changes nothing else |
| TransactionRoutes.DeleteStep | money_manager/routers/transactions.py:126-127 | an id the table still holds is deleted, and every balance gives back that row's contribution |
| TransactionRoutes.AbortStep | money_manager/routers/transactions.py:126-127 | a delete the trigger aborts happens exactly at the first position of the batch that names a row of unrecognised type |
| TransactionRoutes.FirstAbort | money_manager/routers/transactions.py:119-127 | the batch position where the loop meets its first row of unrecognised type: that row exists and aborts, and no earlier position names such a row |
| TransactionRoutes.FirstAbortExists | money_manager/routers/transactions.py:119-127 | a batch naming some row of unrecognised type has a first such position, with no such row named before it |
| TransactionRoutes.DeleteEach | money_manager/routers/transactions.py:119-127 | the loop ends with all present rows deleted and the skipped positions listed, or stops at the first aborting position with exactly the earlier deletions and balance changes kept |
| TransactionRoutes.DeleteTransactions | money_manager/routers/transactions.py:107-142 | every named row is removed and every balance loses the sum of those rows' contributions; the call fails iff some position was skipped, with the skipped ids in batch order, and committed deletions stay; a row of unrecognised type aborts the call at its first position, keeping exactly the deletions before it |
| ImportRoutes.InsertLine | money_manager/routers/import_statement.py:45-56 | a line becomes a Withdrawal row of its price on the statement's account under an id above all others; only that account's balance moves, down by the price |
| ImportRoutes.DebitStep | money_manager/routers/import_statement.py:44-56 | storing the next line debits its price on top of the earlier lines |
| ImportRoutes.StoreLines | money_manager/routers/import_statement.py:44-67 | the lines are stored in order until the first unreadable one |
| ImportRoutes.ImportStatement | money_manager/routers/import_statement.py:29-78 | a missing account, then a missing category, fails before any insert; otherwise there is one Withdrawal per line in order under ascending fresh ids, and the account ends at its balance minus the sum of the prices; in every outcome no account is added or removed and only the statement account's balance can move; the first unreadable line stops the import with `Unparsable`, keeping exactly the Withdrawal rows and debits of the lines before it |
| ImportRoutes.FirstUnreadable | money_manager/routers/import_statement.py:44-50 | the line where the import stops: it cannot be read, and every line before it can |
| AccountRoutes.AccountList | money_manager/routers/account.py:25-33 | every account once, in ascending title order |
| AccountRoutes.AccountCreate | money_manager/routers/account.py:35-61 | stores the given title, currency and balance under a fresh id, or fails with 400 "UNIQUE constraint failed" iff the title is taken |
| AccountRoutes.AccountUpdate | money_manager/routers/account.py:63-96 | an unknown id fails with 400, a patch that changes nothing fails with 404 "Nothing to update", a taken title fails with 400, each leaving the ledger as it was; it fails exactly in those three cases, so a known id with a changing patch and a free title succeeds; then the account becomes the patched one, and a balance in the patch overwrites the stored balance |
| AccountRoutes.AccountDelete | money_manager/routers/account.py:98-113 | an unknown id fails with 400; otherwise the account is removed and the transactions and other accounts are kept |
| CategoryRoutes.ListCategories | money_manager/routers/categories.py:21-38 | every category once, in ascending title order |
| CategoryRoutes.CreateCategory | money_manager/routers/categories.py:40-70 | stores the given parent id and title under a fresh id, or fails with 400 iff the title is taken |
| CategoryRoutes.UpdateCategory | money_manager/routers/categories.py:72-114 | an unknown id fails with 400, a patch that changes nothing fails with 304, a taken title fails with 400, each leaving the ledger as it was; it fails exactly in those three cases, so a known id with a changing patch and a free title succeeds; then the category becomes the patched one |
| CategoryRoutes.DeleteCategory | money_manager/routers/categories.py:116-142 | an unknown id fails with 400; otherwise exactly that category is removed |
| TagRoutes.ListTags | money_manager/routers/tags.py:21-38 | every tag once, in no promised order |
| TagRoutes.CreateTag | money_manager/routers/tags.py:40-70 | stores the given title under a fresh id, or fails with 400 iff the title is taken |
| TagRoutes.UpdateTag | money_manager/routers/tags.py:72-114 | an unknown id fails with 400, a patch that changes nothing fails with 304, a taken title fails with 400, each leaving the ledger as it was; it fails exactly in those three cases, so a known id with a changing patch and a free title succeeds; then the tag becomes the patched one |
| TagRoutes.DeleteTag | money_manager/routers/tags.py:116-142 | an unknown id fails with 400; otherwise exactly that tag is removed |

## Left out

- Floating point: balances and amounts are whole cents, so `ROUND(..., 2)` is the identity. The
  validator `check_two_decimal` (money_manager/core/models.py:36-40) only matters for floats.
- SQLite's trigger firing order is not modelled. `TriggerLaws.UpdateTriggerOrderIrrelevant` shows
  that either order gives the same result.
- `RAISE(IGNORE)` is read as ending the trigger program that reaches it. SQLite's documentation
  also abandons any later trigger programs. Under that reading, a same-account update whose
  source-leg trigger fired before `Update_ToAccount_Balance` would skip the destination legs
  (money_manager/core/triggers.py:120).
- Foreign keys: the model assumes SQLite does not enforce them, so rows may name accounts or
  categories that do not exist. money_manager turns enforcement on with a `PRAGMA` on a connection
  it opens and closes at once (money_manager/dependencies.py:38-39). Whether the handlers' session
  then runs with enforcement depends on whether the connection pool hands that same connection back,
  which the source does not pin down. With enforcement on, three handlers behave differently; each
  is listed on its own line below.
- AccountRoutes.AccountDelete: with foreign keys enforced, deleting an account that some
  transaction names as `account_id` or `to_account_id` fails at commit with an `IntegrityError`
  (money_manager/routers/account.py:109-110). The model deletes the account and keeps those
  transactions.
- CategoryRoutes.DeleteCategory: with foreign keys enforced, deleting a category that some
  transaction names fails at commit (money_manager/routers/categories.py:135-136). The model
  deletes it. `parent_id` carries no foreign key, so a child category never blocks the delete.
- TransactionRoutes.CreateTransaction: with foreign keys enforced, a payload naming an account or
  category that does not exist fails at commit (money_manager/routers/transactions.py:65-66). The
  model stores it.
- The update route for transactions (money_manager/routers/transactions.py:76-105) is commented
  out. The update triggers are modelled directly instead.
- Statement parsing: `strptime` on the date, `Decimal` on the price and the `description` key
  lookup are abstract. A line either yields an `Entry` or is `None`, which gives `Unparsable`.
  The actual exception types and status codes are not modelled.
- ImportRoutes.ImportStatement: the `IntegrityError` branch (money_manager/routers/import_statement.py:58-65)
  is not modelled. The handler checks the account and the category first, so no foreign key can
  fail even when enforced; no other constraint on Transactions exists, and the
  insert trigger never aborts.
- AccountRoutes.AccountUpdate: the `balance` of the update payload is a `Decimal` (money_manager/routers/account.py:23)
  while the stored balance is a float, and `update_attributes` compares them with `==`
  (money_manager/core/models.py:66). In Python a `Decimal` and a float are equal only when the
  float is exactly that decimal, so a patch repeating a stored balance such as 12.34 counts as a
  change in money_manager: it commits and answers 200. With balances in whole cents the model
  finds the value unchanged and answers 404 "Nothing to update".
- The existence check's error detail is reduced to its status, table name and id.
- Models.UpdateAttributes requires every field of the source to exist on the target. A `getattr`
  that raises `AttributeError` is not modelled. Every route passes a payload whose fields belong
  to its own table.
- The schema classes `TransactionScheme`, `CategoryScheme`, `Tags` and `TagScheme` are not part
  of this model. Their fields are taken from how the handlers use them. Tags, like accounts and
  categories, are taken to have a UNIQUE title.
- Rowids.NextRowid: the allocation when the largest rowid is already the 64-bit maximum is not
  modelled.
- Project and file management (`routers/project.py`, `dependencies.py`), seed data
  (`core/default_project.py`), logging, templating, the dashboard and home page, and the
  JavaScript files are I/O or UI outside the engine.
- Session closing and engine disposal after each handler have no effect on the ledger's state
  and are not modelled.

=== FILE: account.dfy ===
/** The `/account` routes: list, create, update and delete. Accounts hold
    the balances the triggers maintain; an update can overwrite a balance
    directly, and, with foreign keys not enforced, a delete leaves the
    account's transactions in place. */
module AccountRoutes {
  import opened Results
  import opened Errors
  import opened Models
  import opened Store
  import opened KeyedStore

  const AccountNotFound := "Account not found"

  /** `account_list`: every account, ordered by title. */
  method AccountList(l: Ledger) returns (s: seq<(int, Account)>)
    ensures Enumerates(s, l.accounts)
    ensures SortedByTitle(s, AccountTitle)
  {
    s := ListByTitle(l.accounts, AccountTitle);
  }

  /** `account_create`: stores the given title, currency and opening
      balance under a new id; a title already in use is a UNIQUE violation
      and nothing is stored. */
  function AccountCreate(l: Ledger, a: Account): (r: Response<(int, Account)>)
    ensures r.result.Err? <==> exists i :: i in l.accounts && l.accounts[i].title == a.title
    ensures r.result.Err? ==> r == Response(l, Err(HttpError(400, UniqueFailed)))
    ensures r.result.Ok? ==>
              && r.result.value.0 !in l.accounts
              && r.result.value.1 == a
              && r.ledger == l.(accounts := l.accounts[r.result.value.0 := a])
    ensures r.result.Ok? && UniqueTitles(l.accounts, AccountTitle) ==> UniqueTitles(r.ledger.accounts, AccountTitle)
  {
    match Create(l.accounts, a, AccountTitle)
    case Err(e) => Response(l, Err(HttpError(400, UniqueFailed)))
    case Ok((id, rows)) => Response(l.(accounts := rows), Ok((id, a)))
  }

  /** `account_update`: fetches the account by the patch's id, merges the
      patch with `update_attributes`, and writes it back. An unknown id
      answers 400, a patch that changes nothing answers 404, and a title
      already held by another account answers 400; each leaves the ledger
      as it was. A `balance` in the patch replaces the stored balance, with
      no transaction behind it. */
  function AccountUpdate(l: Ledger, p: AccountPatch): (r: Response<(int, Account)>)
    ensures p.id !in l.accounts ==> r == Response(l, Err(HttpError(400, AccountNotFound)))
    ensures p.id in l.accounts ==>
              (r.result == Err(HttpError(404, NothingToUpdate))
               <==> !PatchAccount(p, l.accounts[p.id]).1)
    ensures p.id in l.accounts && PatchAccount(p, l.accounts[p.id]).1 ==>
              (r.result == Err(HttpError(400, UniqueFailed))
               <==> TitleHeldByOther(l.accounts, AccountTitle, PatchAccount(p, l.accounts[p.id]).0.title, p.id))
    ensures r.result.Err? <==>
              || p.id !in l.accounts
              || !PatchAccount(p, l.accounts[p.id]).1
              || TitleHeldByOther(l.accounts, AccountTitle, PatchAccount(p, l.accounts[p.id]).0.title, p.id)
    ensures r.result.Err? ==> r.ledger == l
    ensures r.result.Ok? ==>
              && p.id in l.accounts
              && r.result.value.0 == p.id
              && r.result.value.1 == PatchAccount(p, l.accounts[p.id]).0
              && r.ledger == l.(accounts := l.accounts[p.id := r.result.value.1])
    ensures r.result.Ok? && p.balance.Some? ==> r.ledger.accounts[p.id].balance == p.balance.value
    ensures r.result.Ok? && UniqueTitles(l.accounts, AccountTitle) ==> UniqueTitles(r.ledger.accounts, AccountTitle)
  {
    match Update(l.accounts, p.id, (a: Account) => PatchAccount(p, a), AccountTitle)
    case Err(e) => Response(l, Err(HttpFailure(e, AccountNotFound, 404)))
    case Ok(rows) => Response(l.(accounts := rows), Ok((p.id, rows[p.id])))
  }

  /** `account_delete`: removes the account. With foreign keys not
      enforced, the transactions that name it stay, and no other balance
      moves. */
  function AccountDelete(l: Ledger, id: int): (r: Response<()>)
    ensures id !in l.accounts ==> r == Response(l, Err(HttpError(400, AccountNotFound)))
    ensures id in l.accounts ==>
              && r.result.Ok?
              && r.ledger.accounts.Keys == l.accounts.Keys - {id}
              && (forall x :: x in r.ledger.accounts ==> r.ledger.accounts[x] == l.accounts[x])
              && r.ledger.transactions == l.transactions
              && r.ledger.categories == l.categories && r.ledger.tags == l.tags
  {
    match Delete(l.accounts, id)
    case Err(_) => Response(l, Err(HttpError(400, AccountNotFound)))
    case Ok(rows) => Response(l.(accounts := rows), Ok(()))
  }
}

=== FILE: categories.dfy ===
/** The `/category` routes: list, create, update and delete. Categories
    carry no balance; their only constraint is the UNIQUE title. */
module CategoryRoutes {
  import opened Results
  import opened Errors
  import opened Models
  import opened Store
  import opened KeyedStore

  const CategoryNotFound := "Category not found"

  /** `list_categories`: every category, ordered by title. */
  method ListCategories(l: Ledger) returns (s: seq<(int, Category)>)
    ensures Enumerates(s, l.categories)
    ensures SortedByTitle(s, CategoryTitle)
  {
    s := ListByTitle(l.categories, CategoryTitle);
  }

  /** `create_category`: stores the given parent id and title under a new
      id; a title already in use is a UNIQUE violation and nothing is
      stored. */
  function CreateCategory(l: Ledger, c: Category): (r: Response<(int, Category)>)
    ensures r.result.Err? <==> exists i :: i in l.categories && l.categories[i].title == c.title
    ensures r.result.Err? ==> r == Response(l, Err(HttpError(400, UniqueFailed)))
    ensures r.result.Ok? ==>
              && r.result.value.0 !in l.categories
              && r.result.value.1 == c
              && r.ledger == l.(categories := l.categories[r.result.value.0 := c])
    ensures r.result.Ok? && UniqueTitles(l.categories, CategoryTitle) ==> UniqueTitles(r.ledger.categories, CategoryTitle)
  {
    match Create(l.categories, c, CategoryTitle)
    case Err(e) => Response(l, Err(HttpError(400, UniqueFailed)))
    case Ok((id, rows)) => Response(l.(categories := rows), Ok((id, c)))
  }

  /** `update_category`: fetches the category by the patch's id, merges the
      patch with `update_attributes`, and writes it back. An unknown id
      answers 400, a patch that changes nothing answers 304, and a title
      already held by another category answers 400; each leaves the ledger
      as it was. */
  function UpdateCategory(l: Ledger, p: CategoryPatch): (r: Response<(int, Category)>)
    ensures p.id !in l.categories ==> r == Response(l, Err(HttpError(400, CategoryNotFound)))
    ensures p.id in l.categories ==>
              (r.result == Err(HttpError(304, NothingToUpdate))
               <==> !PatchCategory(p, l.categories[p.id]).1)
    ensures p.id in l.categories && PatchCategory(p, l.categories[p.id]).1 ==>
              (r.result == Err(HttpError(400, UniqueFailed))
               <==> TitleHeldByOther(l.categories, CategoryTitle, PatchCategory(p, l.categories[p.id]).0.title, p.id))
    ensures r.result.Err? <==>
              || p.id !in l.categories
              || !PatchCategory(p, l.categories[p.id]).1
              || TitleHeldByOther(l.categories, CategoryTitle, PatchCategory(p, l.categories[p.id]).0.title, p.id)
    ensures r.result.Err? ==> r.ledger == l
    ensures r.result.Ok? ==>
              && p.id in l.categories
              && r.result.value.0 == p.id
              && r.result.value.1 == PatchCategory(p, l.categories[p.id]).0
              && r.ledger == l.(categories := l.categories[p.id := r.result.value.1])
    ensures r.result.Ok? && UniqueTitles(l.categories, CategoryTitle) ==> UniqueTitles(r.ledger.categories, CategoryTitle)
  {
    match Update(l.categories, p.id, (c: Category) => PatchCategory(p, c), CategoryTitle)
    case Err(e) => Response(l, Err(HttpFailure(e, CategoryNotFound, 304)))
    case Ok(rows) => Response(l.(categories := rows), Ok((p.id, rows[p.id])))
  }

  /** `delete_category`: removes the category; with foreign keys not
      enforced, nothing else changes. */
  function DeleteCategory(l: Ledger, id: int): (r: Response<()>)
    ensures id !in l.categories ==> r == Response(l, Err(HttpError(400, CategoryNotFound)))
    ensures id in l.categories ==>
              && r.result.Ok?
              && r.ledger.categories.Keys == l.categories.Keys - {id}
              && (forall x :: x in r.ledger.categories ==> r.ledger.categories[x] == l.categories[x])
              && r.ledger.accounts == l.accounts && r.ledger.tags == l.tags
              && r.ledger.transactions == l.transactions
  {
    match Delete(l.categories, id)
    case Err(_) => Response(l, Err(HttpError(400, CategoryNotFound)))
    case Ok(rows) => Response(l.(categories := rows), Ok(()))
  }
}

=== FILE: collation.dfy ===
/** SQLite's default BINARY collation on TEXT, used by `ORDER BY title ASC`:
    strings compare by the bytes of their UTF-8 encoding, which is the order
    of their code points, a proper prefix coming first. */
module Collation {

  predicate TextLe(a: string, b: string)
    decreases |a|
  {
    |a| == 0 || (|b| > 0 && (a[0] < b[0] || (a[0] == b[0] && TextLe(a[1..], b[1..]))))
  }

  lemma {:induction false} TextLeReflexive(a: string)
    ensures TextLe(a, a)
    decreases |a|
  {
    if |a| > 0 {
      TextLeReflexive(a[1..]);
    }
  }

  lemma {:induction false} TextLeTotal(a: string, b: string)
    ensures TextLe(a, b) || TextLe(b, a)
    decreases |a|
  {
    if |a| > 0 && |b| > 0 && a[0] == b[0] {
      TextLeTotal(a[1..], b[1..]);
    }
  }

  lemma {:induction false} TextLeTransitive(a: string, b: string, c: string)
    requires TextLe(a, b) && TextLe(b, c)
    ensures TextLe(a, c)
    decreases |a|
  {
    if |a| > 0 && a[0] == b[0] && b[0] == c[0] {
      TextLeTransitive(a[1..], b[1..], c[1..]);
    }
  }

  lemma {:induction false} TextLeAntisymmetric(a: string, b: string)
    requires TextLe(a, b) && TextLe(b, a)
    ensures a == b
    decreases |a|
  {
    if |a| > 0 {
      TextLeAntisymmetric(a[1..], b[1..]);
      assert a == [a[0]] + a[1..];
      assert b == [b[0]] + b[1..];
    }
  }
}

=== FILE: import_statement.dfy ===
/** The `/import` route: a bank statement becomes one Withdrawal per line
    on a single account and category, inserted and committed line by
    line. */
module ImportRoutes {
  import opened Results
  import opened Errors
  import opened Triggers
  import opened Models
  import opened Store
  import KeyedStore

  /** One statement line as the import reads it: the date `strptime`
      accepted, the price in cents `Decimal` produced, and the description. */
  datatype Entry = Entry(date: string, price: int, description: Option<string>)

  /** The request body. A line is `None` when it cannot become a row: a
      missing `date`, `price` or `description` key, a date that is not
      `YYYY-MM-DD`, or a price that is not a number. */
  datatype Statement = Statement(accountId: AccountId, categoryId: int, lines: seq<Option<Entry>>)

  /** The response body: the account after the import and every stored
      row with its id, in statement order. */
  datatype Imported = Imported(account: Account, transactions: seq<(int, Transaction)>)

  /** The row a statement line becomes. */
  function AsWithdrawal(s: Statement, e: Entry): (r: Transaction)
  {
    Transaction(s.accountId, None, s.categoryId, Withdrawal, e.date, e.price, None, e.description)
  }

  /** Storing one line: a new row under an id above every existing one,
      whose insert trigger debits the statement's account by the price and
      moves no other balance. */
  function InsertLine(l: Ledger, s: Statement, e: Entry): (r: (int, Ledger))
    requires s.accountId in l.accounts
    ensures forall id :: id in l.transactions ==> id < r.0
    ensures r.1.transactions == l.transactions[r.0 := AsWithdrawal(s, e)]
    ensures r.1.categories == l.categories && r.1.tags == l.tags
    ensures r.1.accounts.Keys == l.accounts.Keys
    ensures forall x :: x in l.accounts && x != s.accountId ==> r.1.accounts[x] == l.accounts[x]
    ensures r.1.accounts[s.accountId] == l.accounts[s.accountId].(balance := l.accounts[s.accountId].balance - e.price)
  {
    InsertRow(l, AsWithdrawal(s, e))
  }

  /** The sum of the prices of the readable lines. */
  function PriceSum(lines: seq<Option<Entry>>): (r: int)
    decreases |lines|
  {
    if |lines| == 0 then 0
    else
      var last := lines[|lines| - 1];
      PriceSum(lines[..|lines| - 1]) + (if last.Some? then last.value.price else 0)
  }

  lemma PriceSumStep(lines: seq<Option<Entry>>, i: nat)
    requires i < |lines| && lines[i].Some?
    ensures PriceSum(lines[..i + 1]) == PriceSum(lines[..i]) + lines[i].value.price
  {
    assert lines[..i + 1][..i] == lines[..i];
  }

  /** Every line before position `k` is readable. */
  predicate ReadableUpTo(lines: seq<Option<Entry>>, k: int)
  {
    forall j :: 0 <= j < k && j < |lines| ==> lines[j].Some?
  }

  /** The position of the first line that cannot be read. */
  ghost function FirstUnreadable(lines: seq<Option<Entry>>): (k: nat)
    requires !ReadableUpTo(lines, |lines|)
    ensures k < |lines| && lines[k].None?
    ensures ReadableUpTo(lines, k)
    decreases |lines|
  {
    if lines[0].None? then 0 else 1 + FirstUnreadable(lines[1..])
  }

  /** The ids of `rows` strictly increase: rows were stored in that order. */
  predicate Ascending(rows: seq<(int, Transaction)>)
  {
    forall i, j :: 0 <= i < j < |rows| ==> rows[i].0 < rows[j].0
  }

  /** After the first `i` lines: `cur` holds `l`'s rows plus one Withdrawal
      row per line, in order, under ascending new ids. */
  predicate RowsStoredUpTo(l: Ledger, s: Statement, i: nat, cur: Ledger, saved: seq<(int, Transaction)>)
    requires i <= |s.lines| && ReadableUpTo(s.lines, i)
  {
    && |saved| == i
    && (forall id :: id in l.transactions ==> id in cur.transactions && cur.transactions[id] == l.transactions[id])
    && (forall k :: 0 <= k < i ==>
          && saved[k].0 !in l.transactions
          && saved[k].1 == AsWithdrawal(s, s.lines[k].value)
          && saved[k].0 in cur.transactions
          && cur.transactions[saved[k].0] == saved[k].1)
    && Ascending(saved)
    && cur.transactions.Keys == l.transactions.Keys + KeyedStore.Ids(saved)
  }

  /** After the first `i` lines: the statement's account is debited by
      their prices, and nothing else in `l` but its rows has changed. */
  predicate DebitedUpTo(l: Ledger, s: Statement, i: nat, cur: Ledger)
    requires i <= |s.lines| && s.accountId in l.accounts
  {
    && cur.categories == l.categories && cur.tags == l.tags
    && SameAccountsButBalance(l.accounts, cur.accounts)
    && (forall x :: x in l.accounts && x != s.accountId ==> cur.accounts[x] == l.accounts[x])
    && cur.accounts[s.accountId].balance == l.accounts[s.accountId].balance - PriceSum(s.lines[..i])
  }

  predicate StoredUpTo(l: Ledger, s: Statement, i: nat, cur: Ledger, saved: seq<(int, Transaction)>)
  {
    && s.accountId in l.accounts
    && i <= |s.lines|
    && ReadableUpTo(s.lines, i)
    && RowsStoredUpTo(l, s, i, cur, saved)
    && DebitedUpTo(l, s, i, cur)
  }

  /** Storing line `i` adds its row after the rows of the first `i` lines. */
  lemma RowsStep(l: Ledger, s: Statement, i: nat, cur: Ledger, saved: seq<(int, Transaction)>, id: int, next: Ledger)
    requires i < |s.lines| && ReadableUpTo(s.lines, i + 1)
    requires RowsStoredUpTo(l, s, i, cur, saved)
    requires forall k :: k in cur.transactions ==> k < id
    requires next.transactions == cur.transactions[id := AsWithdrawal(s, s.lines[i].value)]
    ensures RowsStoredUpTo(l, s, i + 1, next, saved + [(id, AsWithdrawal(s, s.lines[i].value))])
  {
    var t := AsWithdrawal(s, s.lines[i].value);
    var after := saved + [(id, t)];
    KeyedStore.IdsAppend(saved, (id, t));
    forall k | 0 <= k < i + 1
      ensures && after[k].0 !in l.transactions
              && after[k].1 == AsWithdrawal(s, s.lines[k].value)
              && after[k].0 in next.transactions
              && next.transactions[after[k].0] == after[k].1
    {
      if k < i {
        assert after[k] == saved[k];
        assert saved[k].0 in cur.transactions;
      } else {
        assert id !in cur.transactions;
      }
    }
    assert Ascending(after) by {
      forall a, b | 0 <= a < b < |after| ensures after[a].0 < after[b].0 {
        if b == i {
          assert saved[a].0 in cur.transactions;
        }
      }
    }
  }

  /** Storing line `i` debits its price on top of the first `i` lines. */
  lemma DebitStep(l: Ledger, s: Statement, i: nat, cur: Ledger, next: Ledger)
    requires i < |s.lines| && s.lines[i].Some? && s.accountId in l.accounts
    requires DebitedUpTo(l, s, i, cur)
    requires next == InsertLine(cur, s, s.lines[i].value).1
    ensures DebitedUpTo(l, s, i + 1, next)
  {
    PriceSumStep(s.lines, i);
  }

  /** The loop over the statement lines: stores them one by one and stops
      at the first line that cannot be read, which then sits right after
      the stored ones. */
  method StoreLines(l: Ledger, s: Statement) returns (cur: Ledger, saved: seq<(int, Transaction)>)
    requires s.accountId in l.accounts
    ensures |saved| <= |s.lines|
    ensures StoredUpTo(l, s, |saved|, cur, saved)
    ensures |saved| < |s.lines| ==> s.lines[|saved|].None?
  {
    cur := l;
    saved := [];
    var i := 0;
    assert KeyedStore.Ids(saved) == {};
    while i < |s.lines|
      invariant StoredUpTo(l, s, i, cur, saved)
    {
      var line := s.lines[i];
      if line.None? {
        return;
      }
      var (id, next) := InsertLine(cur, s, line.value);
      RowsStep(l, s, i, cur, saved, id, next);
      DebitStep(l, s, i, cur, next);
      saved := saved + [(id, AsWithdrawal(s, line.value))];
      cur := next;
      i := i + 1;
    }
  }

  /** `import_statement`: checks that the account and then the category
      exist, and answers 400 before any insert if one does not. Each line
      is then inserted as a Withdrawal of its price on the account, with the
      line's date and description, and committed at once; a line that
      cannot be read stops the import with the earlier rows and their debits
      kept. */
  method ImportStatement(l: Ledger, s: Statement) returns (r: Response<Imported>)
    ensures s.accountId !in l.accounts ==> r == Response(l, Err(NotExisting(400, "Accounts", s.accountId)))
    ensures s.accountId in l.accounts && s.categoryId !in l.categories ==>
              r == Response(l, Err(NotExisting(400, "Categories", s.categoryId)))
    ensures r.ledger.categories == l.categories && r.ledger.tags == l.tags
    ensures SameAccountsButBalance(l.accounts, r.ledger.accounts)
    ensures forall x :: x in l.accounts && x != s.accountId ==> r.ledger.accounts[x] == l.accounts[x]
    ensures forall id :: id in l.transactions ==> id in r.ledger.transactions && r.ledger.transactions[id] == l.transactions[id]
    ensures r.result.Ok? <==>
              s.accountId in l.accounts && s.categoryId in l.categories && ReadableUpTo(s.lines, |s.lines|)
    ensures r.result.Err? && s.accountId in l.accounts && s.categoryId in l.categories ==>
              && r.result.error == Unparsable
              && r.ledger.accounts[s.accountId].balance
                 == l.accounts[s.accountId].balance - PriceSum(s.lines[..FirstUnreadable(s.lines)])
    ensures r.result.Err? && s.accountId in l.accounts && s.categoryId in l.categories ==>
              exists rows :: RowsStoredUpTo(l, s, FirstUnreadable(s.lines), r.ledger, rows)
    ensures r.result.Ok? ==>
              var rows := r.result.value.transactions;
              && |rows| == |s.lines|
              && (forall k :: 0 <= k < |rows| ==>
                    && rows[k].0 !in l.transactions
                    && rows[k].1 == AsWithdrawal(s, s.lines[k].value)
                    && rows[k].0 in r.ledger.transactions
                    && r.ledger.transactions[rows[k].0] == rows[k].1)
              && Ascending(rows)
              && r.ledger.transactions.Keys == l.transactions.Keys + KeyedStore.Ids(rows)
              && r.result.value.account == r.ledger.accounts[s.accountId]
              && r.result.value.account.balance == l.accounts[s.accountId].balance - PriceSum(s.lines)
  {
    if s.accountId !in l.accounts {
      return Response(l, Err(NotExisting(400, "Accounts", s.accountId)));
    }
    if s.categoryId !in l.categories {
      return Response(l, Err(NotExisting(400, "Categories", s.categoryId)));
    }
    var cur, saved := StoreLines(l, s);
    if |saved| < |s.lines| {
      assert !ReadableUpTo(s.lines, |s.lines|);
      assert FirstUnreadable(s.lines) == |saved|;
      return Response(cur, Err(Unparsable));
    }
    assert s.lines[..|s.lines|] == s.lines;
    r := Response(cur, Ok(Imported(cur.accounts[s.accountId], saved)));
  }
}

=== FILE: keyed_store.dfy ===
/** One table keyed by an integer `id` whose rows carry a UNIQUE `title`:
    the lookup / create / patch / delete shape shared by the account,
    category and tag routes, and their two listings. */
module KeyedStore {
  import opened Results
  import opened Errors
  import opened Rowids
  import opened Collation
  import opened Maps

  /** How a store operation can fail: no row with that id, a patch that
      changes nothing, or a violation of the UNIQUE title constraint. */
  datatype StoreError = Missing | Unchanged | Duplicate

  /** The UNIQUE constraint on `title`. */
  predicate UniqueTitles<R>(rows: map<int, R>, title: R -> string)
  {
    forall i, j :: i in rows && j in rows && i != j ==> title(rows[i]) != title(rows[j])
  }

  /** Some row other than `id` already has title `t`. */
  predicate TitleHeldByOther<R>(rows: map<int, R>, title: R -> string, t: string, id: int)
  {
    exists j :: j in rows && j != id && title(rows[j]) == t
  }

  /** INSERT of a new row under the next rowid; the UNIQUE constraint
      rejects a title already in the table. */
  function Create<R>(rows: map<int, R>, x: R, title: R -> string): (r: Result<(int, map<int, R>), StoreError>)
    ensures r.Err? <==> exists i :: i in rows && title(rows[i]) == title(x)
    ensures r.Err? ==> r.error == Duplicate
    ensures r.Ok? ==> r.value.0 !in rows && r.value.1 == rows[r.value.0 := x]
    ensures r.Ok? && UniqueTitles(rows, title) ==> UniqueTitles(r.value.1, title)
  {
    var id := NextRowid(rows.Keys);
    if TitleHeldByOther(rows, title, title(x), id) then Err(Duplicate)
    else Ok((id, rows[id := x]))
  }

  /** Fetch the row by id, merge the patch into it, and write it back.
      A missing row fails before anything else, a patch that changes
      nothing fails next, and the write itself can violate the UNIQUE
      constraint. */
  function Update<R>(rows: map<int, R>, id: int, patch: R -> (R, bool), title: R -> string)
    : (r: Result<map<int, R>, StoreError>)
    ensures r == Err(Missing) <==> id !in rows
    ensures id in rows ==> (r == Err(Unchanged) <==> !patch(rows[id]).1)
    ensures id in rows && patch(rows[id]).1 ==>
              (r == Err(Duplicate) <==> TitleHeldByOther(rows, title, title(patch(rows[id]).0), id))
    ensures r.Ok? ==> id in rows && r.value == rows[id := patch(rows[id]).0]
    ensures r.Ok? && UniqueTitles(rows, title) ==> UniqueTitles(r.value, title)
  {
    if id !in rows then Err(Missing)
    else
      var merged := patch(rows[id]);
      if !merged.1 then Err(Unchanged)
      else if TitleHeldByOther(rows, title, title(merged.0), id) then Err(Duplicate)
      else Ok(rows[id := merged.0])
  }

  /** DELETE of the row with this id; a missing row is an error. */
  function Delete<R>(rows: map<int, R>, id: int): (r: Result<map<int, R>, StoreError>)
    ensures r.Err? <==> id !in rows
    ensures r.Err? ==> r.error == Missing
    ensures r.Ok? ==> r.value.Keys == rows.Keys - {id}
    ensures r.Ok? ==> forall j :: j in r.value ==> r.value[j] == rows[j]
  {
    if id !in rows then Err(Missing) else Ok(rows - {id})
  }

  /** The `HTTPException` a route raises for a store failure: a missing row
      answers 400 with the route's own message, a patch that changes nothing
      answers the route's own status, and a UNIQUE violation answers 400. */
  function HttpFailure(e: StoreError, notFound: string, unchangedStatus: int): (r: Failure)
  {
    match e
    case Missing => HttpError(400, notFound)
    case Unchanged => HttpError(unchangedStatus, NothingToUpdate)
    case Duplicate => HttpError(400, UniqueFailed)
  }

  // ---------------------------------------------------------------------
  // Listings
  // ---------------------------------------------------------------------

  function Ids<R>(s: seq<(int, R)>): (r: set<int>)
  {
    set k | 0 <= k < |s| :: s[k].0
  }

  predicate DistinctIds<R>(s: seq<(int, R)>)
  {
    forall i, j :: 0 <= i < j < |s| ==> s[i].0 != s[j].0
  }

  /** `s` lists every row of `rows` exactly once, with its id. */
  predicate Enumerates<R(==)>(s: seq<(int, R)>, rows: map<int, R>)
  {
    && (forall e :: e in s ==> e.0 in rows && e.1 == rows[e.0])
    && Ids(s) == rows.Keys
    && DistinctIds(s)
  }

  predicate SortedByTitle<R>(s: seq<(int, R)>, title: R -> string)
  {
    forall i, j :: 0 <= i < j < |s| ==> TextLe(title(s[i].1), title(s[j].1))
  }

  lemma IdsAppend<R>(s: seq<(int, R)>, e: (int, R))
    ensures Ids(s + [e]) == Ids(s) + {e.0}
  {
    forall x | x in Ids(s + [e]) ensures x in Ids(s) + {e.0} {
      var k :| 0 <= k < |s + [e]| && (s + [e])[k].0 == x;
      if k < |s| { assert s[k] == (s + [e])[k]; }
    }
    forall x | x in Ids(s) + {e.0} ensures x in Ids(s + [e]) {
      if x in Ids(s) {
        var k :| 0 <= k < |s| && s[k].0 == x;
        assert (s + [e])[k] == s[k];
      } else {
        assert (s + [e])[|s|] == e;
      }
    }
  }

  /** A non-empty set of ids has a member whose row's title comes first. */
  lemma {:induction false} FirstByTitleExists<R>(rows: map<int, R>, pending: set<int>, title: R -> string)
    requires pending != {} && pending <= rows.Keys
    ensures exists id :: id in pending && forall j :: j in pending ==> TextLe(title(rows[id]), title(rows[j]))
    decreases pending
  {
    NonEmpty(pending);
    var x :| x in pending;
    if pending == {x} {
      TextLeReflexive(title(rows[x]));
      assert forall j :: j in pending ==> j == x;
    } else {
      var rest := pending - {x};
      FirstByTitleExists(rows, rest, title);
      var m :| m in rest && forall j :: j in rest ==> TextLe(title(rows[m]), title(rows[j]));
      TextLeTotal(title(rows[x]), title(rows[m]));
      if TextLe(title(rows[m]), title(rows[x])) {
        assert forall j :: j in pending ==> TextLe(title(rows[m]), title(rows[j])) by {
          forall j | j in pending ensures TextLe(title(rows[m]), title(rows[j])) {
            if j != x { assert j in rest; }
          }
        }
      } else {
        assert forall j :: j in pending ==> TextLe(title(rows[x]), title(rows[j])) by {
          forall j | j in pending ensures TextLe(title(rows[x]), title(rows[j])) {
            if j == x {
              TextLeReflexive(title(rows[x]));
            } else {
              assert j in rest;
              TextLeTransitive(title(rows[x]), title(rows[m]), title(rows[j]));
            }
          }
        }
      }
    }
  }

  /** `SELECT * FROM table ORDER BY title ASC`. */
  method ListByTitle<R(==)>(rows: map<int, R>, title: R -> string) returns (s: seq<(int, R)>)
    ensures Enumerates(s, rows)
    ensures SortedByTitle(s, title)
  {
    var pending := rows.Keys;
    s := [];
    while pending != {}
      invariant pending <= rows.Keys
      invariant Ids(s) == rows.Keys - pending
      invariant forall e :: e in s ==> e.0 in rows && e.1 == rows[e.0]
      invariant DistinctIds(s)
      invariant SortedByTitle(s, title)
      invariant forall k, j :: 0 <= k < |s| && j in pending ==> TextLe(title(s[k].1), title(rows[j]))
      decreases pending
    {
      FirstByTitleExists(rows, pending, title);
      var id :| id in pending && forall j :: j in pending ==> TextLe(title(rows[id]), title(rows[j]));
      IdsAppend(s, (id, rows[id]));
      s := s + [(id, rows[id])];
      pending := pending - {id};
    }
  }

  /** `SELECT * FROM table` with no ORDER BY: every row once, in an order
      the database chooses. */
  method ListAll<R(==)>(rows: map<int, R>) returns (s: seq<(int, R)>)
    ensures Enumerates(s, rows)
  {
    var pending := rows.Keys;
    s := [];
    while pending != {}
      invariant pending <= rows.Keys
      invariant Ids(s) == rows.Keys - pending
      invariant forall e :: e in s ==> e.0 in rows && e.1 == rows[e.0]
      invariant DistinctIds(s)
      decreases pending
    {
      NonEmpty(pending);
      var id :| id in pending;
      IdsAppend(s, (id, rows[id]));
      s := s + [(id, rows[id])];
      pending := pending - {id};
    }
  }
}

=== FILE: models.dfy ===
/** The record shapes of the ledger and the generic patch merge
    `update_attributes` that the account, category and tag updates use. */
module Models {
  import opened Results
  import opened Maps

  // ---------------------------------------------------------------------
  // update_attributes on dynamic objects
  // ---------------------------------------------------------------------

  /** An attribute value: Python's `None`, an integer (money in cents) or a
      string. */
  datatype PyValue = NoneV | IntV(i: int) | StrV(s: string)

  /** A Python object as `update_attributes` sees it: a pydantic/SQLModel
      instance, with its `model_fields` in declaration order and its
      attribute values, or any other object, which has no `model_fields`.
      `F` is the type of attribute names. */
  datatype PyObject<F> = Plain | Model(fields: seq<F>, attrs: map<F, PyValue>)

  /** Every field the loop visits can be read from both objects
      (`getattr` would raise otherwise). */
  predicate Readable<F>(fields: seq<F>, src: map<F, PyValue>, tgt: map<F, PyValue>)
  {
    forall f :: f in fields ==> f in src && f in tgt
  }

  /** Whether the patch `src` writes field `f`: it is one of the visited
      fields and its value is not `None`. */
  predicate Writes<F(==)>(fields: seq<F>, src: map<F, PyValue>, f: F)
    requires f in fields ==> f in src
  {
    f in fields && src[f] != NoneV
  }

  /** The loop of `update_attributes`, field by field in order: a `None`
      source value or an equal one is skipped, any other overwrites the
      target, and the flag records whether some field was overwritten. */
  function MergeFields<F(==)>(fields: seq<F>, src: map<F, PyValue>, tgt: map<F, PyValue>)
    : (r: (map<F, PyValue>, bool))
    requires Readable(fields, src, tgt)
    decreases |fields|
    ensures r.0.Keys == tgt.Keys
    ensures forall f :: f in tgt ==> r.0[f] == (if Writes(fields, src, f) then src[f] else tgt[f])
    ensures r.1 <==> r.0 != tgt
  {
    if |fields| == 0 then (tgt, false)
    else
      var f := fields[0];
      var v := src[f];
      var step := if v == NoneV || v == tgt[f] then (tgt, false) else (tgt[f := v], true);
      assert Readable(fields[1..], src, step.0);
      var rest := MergeFields(fields[1..], src, step.0);
      assert step.1 ==> rest.0[f] != tgt[f];
      (rest.0, step.1 || rest.1)
  }

  /** `update_attributes(source, target)`: copies every non-`None` field of
      `source` onto `target` and reports whether any target field changed
      value. Either object lacking `model_fields` leaves the target as it is
      and reports `false`. */
  function UpdateAttributes<F(==)>(source: PyObject<F>, target: PyObject<F>): (r: (PyObject<F>, bool))
    requires source.Model? && target.Model? ==> Readable(source.fields, source.attrs, target.attrs)
    ensures !source.Model? || !target.Model? ==> r == (target, false)
    ensures source.Model? && target.Model? ==>
              && r.0.Model?
              && r.0.fields == target.fields
              && r.0.attrs.Keys == target.attrs.Keys
              && forall f :: f in target.attrs ==>
                   r.0.attrs[f] == (if Writes(source.fields, source.attrs, f) then source.attrs[f] else target.attrs[f])
    ensures r.1 <==> r.0 != target
  {
    if !source.Model? || !target.Model? then (target, false)
    else
      var m := MergeFields(source.fields, source.attrs, target.attrs);
      (target.(attrs := m.0), m.1)
  }

  /** Applying the same patch a second time changes nothing and reports
      `false`. */
  lemma UpdateAttributesIdempotent<F>(source: PyObject<F>, target: PyObject<F>)
    requires source.Model? && target.Model? ==> Readable(source.fields, source.attrs, target.attrs)
    ensures var once := UpdateAttributes(source, target).0;
            UpdateAttributes(source, once) == (once, false)
  {
    var once := UpdateAttributes(source, target).0;
    if source.Model? && target.Model? {
      var twice := UpdateAttributes(source, once).0;
      SameMap(twice.attrs, once.attrs);
    }
  }

  /** The outcome of `update_attributes` on two models is determined field
      by field: an object that holds the patched value of every target field
      is the new target, and the flag says whether it differs from the old. */
  lemma UpdateAttributesIs<F>(source: PyObject<F>, target: PyObject<F>, want: PyObject<F>)
    requires source.Model? && target.Model? && want.Model?
    requires Readable(source.fields, source.attrs, target.attrs)
    requires want.fields == target.fields && want.attrs.Keys == target.attrs.Keys
    requires forall f :: f in target.attrs ==>
               want.attrs[f] == (if Writes(source.fields, source.attrs, f) then source.attrs[f] else target.attrs[f])
    ensures UpdateAttributes(source, target) == (want, want != target)
  {
    var r := UpdateAttributes(source, target);
    SameMap(r.0.attrs, want.attrs);
  }

  // ---------------------------------------------------------------------
  // Entity records (the `id` column is the key of their table)
  // ---------------------------------------------------------------------

  /** A row of Accounts; `title` is UNIQUE, `balance` is in cents. */
  datatype Account = Account(title: string, currency: string, balance: int)

  /** A row of Categories; `title` is UNIQUE. */
  datatype Category = Category(parentId: Option<int>, title: string)

  /** A row of Tags. */
  datatype Tag = Tag(title: string)

  function AccountTitle(a: Account): (r: string) { a.title }
  function CategoryTitle(c: Category): (r: string) { c.title }
  function TagTitle(t: Tag): (r: string) { t.title }

  /** The update payloads: `id` selects the row, `None` means "omitted". */
  datatype AccountPatch = AccountPatch(id: int, title: Option<string>, currency: Option<string>, balance: Option<int>)
  datatype CategoryPatch = CategoryPatch(id: int, parentId: Option<int>, title: Option<string>)
  datatype TagPatch = TagPatch(id: int, title: Option<string>)

  /** Whether one field of a typed patch changes the current value. */
  predicate Differs<T(==)>(p: Option<T>, current: T)
  {
    p.Some? && p.value != current
  }

  /** The account a patch produces, and whether it differs from the stored
      one. */
  function PatchAccount(p: AccountPatch, a: Account): (r: (Account, bool))
    ensures r.1 <==> r.0 != a
    ensures p.balance.Some? ==> r.0.balance == p.balance.value
    ensures p.balance.None? ==> r.0.balance == a.balance
    ensures p.title.Some? ==> r.0.title == p.title.value
    ensures p.title.None? ==> r.0.title == a.title
    ensures p.currency.Some? ==> r.0.currency == p.currency.value
    ensures p.currency.None? ==> r.0.currency == a.currency
  {
    (Account(OrElse(p.title, a.title), OrElse(p.currency, a.currency), OrElse(p.balance, a.balance)),
     Differs(p.title, a.title) || Differs(p.currency, a.currency) || Differs(p.balance, a.balance))
  }

  /** The category a patch produces; a patch cannot clear `parent_id`. */
  function PatchCategory(p: CategoryPatch, c: Category): (r: (Category, bool))
    ensures r.1 <==> r.0 != c
    ensures p.parentId.Some? ==> r.0.parentId == p.parentId
    ensures p.parentId.None? ==> r.0.parentId == c.parentId
    ensures p.title.Some? ==> r.0.title == p.title.value
    ensures p.title.None? ==> r.0.title == c.title
  {
    (Category(if p.parentId.Some? then p.parentId else c.parentId, OrElse(p.title, c.title)),
     (p.parentId.Some? && p.parentId != c.parentId) || Differs(p.title, c.title))
  }

  function PatchTag(p: TagPatch, t: Tag): (r: (Tag, bool))
    ensures r.1 <==> r.0 != t
    ensures p.title.Some? ==> r.0.title == p.title.value
    ensures p.title.None? ==> r.0 == t
  {
    (Tag(OrElse(p.title, t.title)), Differs(p.title, t.title))
  }

  // ---------------------------------------------------------------------
  // The typed patches are update_attributes on the encoded objects
  // ---------------------------------------------------------------------

  function OptStr(s: Option<string>): (r: PyValue)
  {
    match s
    case Some(v) => StrV(v)
    case None => NoneV
  }

  function OptInt(i: Option<int>): (r: PyValue)
  {
    match i
    case Some(v) => IntV(v)
    case None => NoneV
  }

  /** The attribute names of the three tables and their update payloads. */
  datatype FieldName = Id | ParentId | Title | Currency | Balance

  const AccountFields := [Id, Title, Currency, Balance]
  const CategoryFields := [Id, ParentId, Title]
  const TagFields := [Id, Title]

  function AccountObject(id: int, a: Account): (r: PyObject<FieldName>)
  {
    Model(AccountFields, map[Id := IntV(id), Title := StrV(a.title), Currency := StrV(a.currency), Balance := IntV(a.balance)])
  }

  function AccountPatchObject(p: AccountPatch): (r: PyObject<FieldName>)
  {
    Model(AccountFields, map[Id := IntV(p.id), Title := OptStr(p.title), Currency := OptStr(p.currency), Balance := OptInt(p.balance)])
  }

  function CategoryObject(id: int, c: Category): (r: PyObject<FieldName>)
  {
    Model(CategoryFields, map[Id := IntV(id), ParentId := OptInt(c.parentId), Title := StrV(c.title)])
  }

  function CategoryPatchObject(p: CategoryPatch): (r: PyObject<FieldName>)
  {
    Model(CategoryFields, map[Id := IntV(p.id), ParentId := OptInt(p.parentId), Title := OptStr(p.title)])
  }

  function TagObject(id: int, t: Tag): (r: PyObject<FieldName>)
  {
    Model(TagFields, map[Id := IntV(id), Title := StrV(t.title)])
  }

  function TagPatchObject(p: TagPatch): (r: PyObject<FieldName>)
  {
    Model(TagFields, map[Id := IntV(p.id), Title := OptStr(p.title)])
  }

  /** Field by field, the encoded patched account holds what
      `update_attributes` writes. */
  lemma AccountPatchFields(p: AccountPatch, a: Account)
    ensures var src := AccountPatchObject(p);
            var tgt := AccountObject(p.id, a);
            var want := AccountObject(p.id, PatchAccount(p, a).0);
            forall f :: f in tgt.attrs ==>
              want.attrs[f] == (if Writes(src.fields, src.attrs, f) then src.attrs[f] else tgt.attrs[f])
  {
    var src := AccountPatchObject(p);
    var tgt := AccountObject(p.id, a);
    var want := AccountObject(p.id, PatchAccount(p, a).0);
    forall f | f in tgt.attrs
      ensures want.attrs[f] == (if Writes(src.fields, src.attrs, f) then src.attrs[f] else tgt.attrs[f])
    {
      assert f in AccountFields;
    }
  }

  /** The encoding of accounts under one id is injective. */
  lemma AccountObjectInjective(id: int, a: Account, b: Account)
    ensures AccountObject(id, a) == AccountObject(id, b) <==> a == b
  {
    if AccountObject(id, a) == AccountObject(id, b) {
      var x := AccountObject(id, a).attrs;
      var y := AccountObject(id, b).attrs;
      assert x[Title] == y[Title] && x[Currency] == y[Currency] && x[Balance] == y[Balance];
    }
  }

  /** The account update's patch merge is `update_attributes` applied to the
      payload and the stored row fetched by the payload's id. */
  lemma PatchAccountIsUpdateAttributes(p: AccountPatch, a: Account)
    ensures UpdateAttributes(AccountPatchObject(p), AccountObject(p.id, a))
            == (AccountObject(p.id, PatchAccount(p, a).0), PatchAccount(p, a).1)
  {
    AccountPatchFields(p, a);
    UpdateAttributesIs(AccountPatchObject(p), AccountObject(p.id, a), AccountObject(p.id, PatchAccount(p, a).0));
    AccountObjectInjective(p.id, PatchAccount(p, a).0, a);
  }

  lemma PatchCategoryIsUpdateAttributes(p: CategoryPatch, c: Category)
    ensures UpdateAttributes(CategoryPatchObject(p), CategoryObject(p.id, c))
            == (CategoryObject(p.id, PatchCategory(p, c).0), PatchCategory(p, c).1)
  {
    var src := CategoryPatchObject(p);
    var tgt := CategoryObject(p.id, c);
    var patched := PatchCategory(p, c);
    var want := CategoryObject(p.id, patched.0);
    forall f | f in tgt.attrs
      ensures want.attrs[f] == (if Writes(src.fields, src.attrs, f) then src.attrs[f] else tgt.attrs[f])
    {
    }
    UpdateAttributesIs(src, tgt, want);
    assert want != tgt <==> patched.0 != c;
  }

  lemma PatchTagIsUpdateAttributes(p: TagPatch, t: Tag)
    ensures UpdateAttributes(TagPatchObject(p), TagObject(p.id, t))
            == (TagObject(p.id, PatchTag(p, t).0), PatchTag(p, t).1)
  {
    var src := TagPatchObject(p);
    var tgt := TagObject(p.id, t);
    var patched := PatchTag(p, t);
    var want := TagObject(p.id, patched.0);
    forall f | f in tgt.attrs
      ensures want.attrs[f] == (if Writes(src.fields, src.attrs, f) then src.attrs[f] else tgt.attrs[f])
    {
    }
    UpdateAttributesIs(src, tgt, want);
    assert want != tgt <==> patched.0 != t;
  }
}

=== FILE: results.dfy ===
/** Option and Result types used to model Python's `None` and the routers'
    error returns (every `HTTPException(...)` call in the routers raises). */
module Results {

  datatype Option<+T> = None | Some(value: T)

  datatype Result<+T, +E> = Ok(value: T) | Err(error: E)

  /** The value held by `o`, or `fallback` when `o` is `None`. */
  function OrElse<T>(o: Option<T>, fallback: T): (r: T)
  {
    match o
    case Some(v) => v
    case None => fallback
  }
}

/** The errors a handler can end with. `HttpError` is the routers'
    `HTTPException(status_code, detail)`; `Aborted` is a `RAISE(ABORT, msg)`
    inside a trigger, which rolls back the statement and surfaces as a
    database error; `NotExisting` is the existence check's HTTP 400 naming
    the table and the id it could not find; `Unparsable` is a statement line
    the import could not turn into a row. */
module Errors {

  datatype Failure =
    | HttpError(status: int, msg: string)
    | TransactionsNotFound(status: int, skipped: seq<int>)
    | Aborted(reason: string)
    | NotExisting(status: int, table: string, id: int)
    | Unparsable

  const UniqueFailed := "UNIQUE constraint failed"
  const NothingToUpdate := "Nothing to update"
}

/** Facts about sets and maps that the solver does not find unaided. */
module Maps {

  /** A non-empty set of keys has a member. */
  lemma NonEmpty(s: set<int>)
    requires s != {}
    ensures exists x :: x in s
  {
    if forall y :: y !in s {
      assert false;
    }
  }

  /** Two maps with the same keys that agree on every key are equal. */
  lemma SameMap<K, V>(p: map<K, V>, q: map<K, V>)
    requires p.Keys == q.Keys
    requires forall x :: x in p ==> p[x] == q[x]
    ensures p == q
  {
    assert forall x :: x in p <==> x in q;
    assert forall x :: x in p ==> p[x] == q[x];
  }
}

=== FILE: rowids.dfy ===
/** SQLite's choice of a new INTEGER PRIMARY KEY when none is given: one more
    than the largest key in the table, or 1 for an empty table. */
module Rowids {
  import opened Maps

  /** `s` is non-empty and finite, so it has a greatest element. */
  lemma {:induction false} MaxExists(s: set<int>)
    requires s != {}
    ensures exists m :: m in s && forall k :: k in s ==> k <= m
  {
    NonEmpty(s);
    var x :| x in s;
    if s != {x} {
      var rest := s - {x};
      MaxExists(rest);
      var m :| m in rest && forall k :: k in rest ==> k <= m;
      if x <= m {
        assert forall k :: k in s ==> k <= m by {
          forall k | k in s ensures k <= m {
            if k != x { assert k in rest; }
          }
        }
      } else {
        assert forall k :: k in s ==> k <= x by {
          forall k | k in s ensures k <= x {
            if k != x { assert k in rest; }
          }
        }
      }
    } else {
      assert forall k :: k in s ==> k <= x;
    }
  }

  /** The greatest key in use. */
  function MaxKey(s: set<int>): (m: int)
    requires s != {}
    ensures m in s
    ensures forall k :: k in s ==> k <= m
  {
    MaxExists(s);
    var m :| m in s && forall k :: k in s ==> k <= m;
    m
  }

  /** The rowid SQLite gives a row inserted into a table whose keys are `s`. */
  function NextRowid(s: set<int>): (id: int)
    ensures id !in s
    ensures forall k :: k in s ==> k < id
    ensures s == {} ==> id == 1
  {
    if s == {} then 1 else MaxKey(s) + 1
  }
}

=== FILE: store.dfy ===
/** The ledger's four tables and the two statements on Transactions that
    fire the balance triggers: INSERT (with the insert trigger) and DELETE
    (with the delete trigger). */
module Store {
  import opened Results
  import opened Errors
  import opened Rowids
  import opened Triggers
  import opened Models

  /** One project database. */
  datatype Ledger = Ledger(
    accounts: map<int, Account>,
    categories: map<int, Category>,
    tags: map<int, Tag>,
    transactions: map<int, Transaction>)

  /** What a route handler leaves behind: the committed state of the
      database, and either its return value or the error it raised. An
      error raised after some commits leaves those commits in place. */
  datatype Response<T> = Response(ledger: Ledger, result: Result<T, Failure>)

  /** The `balance` column of Accounts. */
  function BalancesOf(accounts: map<int, Account>): (b: Balances)
    ensures b.Keys == accounts.Keys
    ensures forall id :: id in accounts ==> b[id] == accounts[id].balance
  {
    map id | id in accounts :: accounts[id].balance
  }

  /** Accounts with their `balance` column replaced by `b` and every other
      column kept. */
  function WithBalances(accounts: map<int, Account>, b: Balances): (r: map<int, Account>)
    requires b.Keys == accounts.Keys
    ensures r.Keys == accounts.Keys
    ensures BalancesOf(r) == b
    ensures forall id :: id in r ==> r[id].title == accounts[id].title && r[id].currency == accounts[id].currency
  {
    var r := map id | id in accounts :: accounts[id].(balance := b[id]);
    assert BalancesOf(r) == b by {
      Maps.SameMap(BalancesOf(r), b);
    }
    r
  }

  /** Only balances differ between `a` and `b`. */
  predicate SameAccountsButBalance(a: map<int, Account>, b: map<int, Account>)
  {
    a.Keys == b.Keys
    && forall id :: id in a ==> a[id].title == b[id].title && a[id].currency == b[id].currency
  }

  /** Whether the source leg of row `t` would hit RAISE in this ledger. */
  predicate RowUnrecognised(l: Ledger, t: Transaction)
  {
    Unrecognised(BalancesOf(l.accounts), t)
  }

  /** `INSERT INTO Transactions` under the next rowid, followed by the
      insert trigger. The statement cannot fail. */
  function InsertRow(l: Ledger, t: Transaction): (r: (int, Ledger))
    ensures r.0 !in l.transactions
    ensures forall id :: id in l.transactions ==> id < r.0
    ensures r.1.transactions == l.transactions[r.0 := t]
    ensures r.1.categories == l.categories && r.1.tags == l.tags
    ensures SameAccountsButBalance(l.accounts, r.1.accounts)
    ensures RowUnrecognised(l, t) ==> r.1.accounts == l.accounts
    ensures !RowUnrecognised(l, t) ==> forall x :: x in l.accounts ==>
              r.1.accounts[x].balance == l.accounts[x].balance + Contribution(t, x)
  {
    var id := NextRowid(l.transactions.Keys);
    var b := InsertTrigger(BalancesOf(l.accounts), t);
    var accounts := WithBalances(l.accounts, b);
    assert RowUnrecognised(l, t) ==> accounts == l.accounts by {
      if RowUnrecognised(l, t) {
        Maps.SameMap(accounts, l.accounts);
      }
    }
    (id, l.(accounts := accounts, transactions := l.transactions[id := t]))
  }

  /** `DELETE FROM Transactions WHERE id = ...` on an existing row,
      followed by the delete trigger; a RAISE(ABORT) rolls the statement
      back. */
  function DeleteRow(l: Ledger, id: int): (r: Result<Ledger, Failure>)
    requires id in l.transactions
    ensures r.Err? <==> RowUnrecognised(l, l.transactions[id])
    ensures r.Err? ==> r.error.Aborted?
    ensures r.Ok? ==> r.value.transactions == l.transactions - {id}
    ensures r.Ok? ==> r.value.categories == l.categories && r.value.tags == l.tags
    ensures r.Ok? ==> SameAccountsButBalance(l.accounts, r.value.accounts)
    ensures r.Ok? ==> forall x :: x in l.accounts ==>
              r.value.accounts[x].balance == l.accounts[x].balance - Contribution(l.transactions[id], x)
  {
    match DeleteTrigger(BalancesOf(l.accounts), l.transactions[id])
    case Err(e) => Err(e)
    case Ok(b) => Ok(l.(accounts := WithBalances(l.accounts, b), transactions := l.transactions - {id}))
  }

  /** Creating a row and deleting it again restores the ledger exactly. */
  lemma DeleteRowUndoesInsertRow(l: Ledger, t: Transaction)
    requires !RowUnrecognised(l, t)
    ensures var (id, l1) := InsertRow(l, t);
            DeleteRow(l1, id) == Ok(l)
  {
    var (id, l1) := InsertRow(l, t);
    var d := DeleteRow(l1, id);
    assert !RowUnrecognised(l1, t);
    assert d.Ok?;
    Maps.SameMap(d.value.transactions, l.transactions);
    forall x | x in l.accounts ensures d.value.accounts[x] == l.accounts[x] {
      assert d.value.accounts[x].balance == l.accounts[x].balance;
    }
    Maps.SameMap(d.value.accounts, l.accounts);
  }
}

=== FILE: tags.dfy ===
/** The `/tag` routes: list, create, update and delete. Tags carry no
    balance; their only constraint is the UNIQUE title. */
module TagRoutes {
  import opened Results
  import opened Errors
  import opened Models
  import opened Store
  import opened KeyedStore

  const TagNotFound := "Tag not found"

  /** `list_tags`: every tag once; the query has no ORDER BY, so no order
      is promised. */
  method ListTags(l: Ledger) returns (s: seq<(int, Tag)>)
    ensures Enumerates(s, l.tags)
  {
    s := ListAll(l.tags);
  }

  /** `create_tag`: stores the given title under a new id; a title already
      in use is a UNIQUE violation and nothing is stored. */
  function CreateTag(l: Ledger, t: Tag): (r: Response<(int, Tag)>)
    ensures r.result.Err? <==> exists i :: i in l.tags && l.tags[i].title == t.title
    ensures r.result.Err? ==> r == Response(l, Err(HttpError(400, UniqueFailed)))
    ensures r.result.Ok? ==>
              && r.result.value.0 !in l.tags
              && r.result.value.1 == t
              && r.ledger == l.(tags := l.tags[r.result.value.0 := t])
    ensures r.result.Ok? && UniqueTitles(l.tags, TagTitle) ==> UniqueTitles(r.ledger.tags, TagTitle)
  {
    match Create(l.tags, t, TagTitle)
    case Err(e) => Response(l, Err(HttpError(400, UniqueFailed)))
    case Ok((id, rows)) => Response(l.(tags := rows), Ok((id, t)))
  }

  /** `update_tag`: fetches the tag by the patch's id, merges the patch with
      `update_attributes`, and writes it back. An unknown id answers 400, a
      patch that changes nothing answers 304, and a title already held by
      another tag answers 400; each leaves the ledger as it was. */
  function UpdateTag(l: Ledger, p: TagPatch): (r: Response<(int, Tag)>)
    ensures p.id !in l.tags ==> r == Response(l, Err(HttpError(400, TagNotFound)))
    ensures p.id in l.tags ==>
              (r.result == Err(HttpError(304, NothingToUpdate))
               <==> !PatchTag(p, l.tags[p.id]).1)
    ensures p.id in l.tags && PatchTag(p, l.tags[p.id]).1 ==>
              (r.result == Err(HttpError(400, UniqueFailed))
               <==> TitleHeldByOther(l.tags, TagTitle, PatchTag(p, l.tags[p.id]).0.title, p.id))
    ensures r.result.Err? <==>
              || p.id !in l.tags
              || !PatchTag(p, l.tags[p.id]).1
              || TitleHeldByOther(l.tags, TagTitle, PatchTag(p, l.tags[p.id]).0.title, p.id)
    ensures r.result.Err? ==> r.ledger == l
    ensures r.result.Ok? ==>
              && p.id in l.tags
              && r.result.value.0 == p.id
              && r.result.value.1 == PatchTag(p, l.tags[p.id]).0
              && r.ledger == l.(tags := l.tags[p.id := r.result.value.1])
    ensures r.result.Ok? && UniqueTitles(l.tags, TagTitle) ==> UniqueTitles(r.ledger.tags, TagTitle)
  {
    match Update(l.tags, p.id, (t: Tag) => PatchTag(p, t), TagTitle)
    case Err(e) => Response(l, Err(HttpFailure(e, TagNotFound, 304)))
    case Ok(rows) => Response(l.(tags := rows), Ok((p.id, rows[p.id])))
  }

  /** `delete_tag`: removes the tag; nothing else changes. */
  function DeleteTag(l: Ledger, id: int): (r: Response<()>)
    ensures id !in l.tags ==> r == Response(l, Err(HttpError(400, TagNotFound)))
    ensures id in l.tags ==>
              && r.result.Ok?
              && r.ledger.tags.Keys == l.tags.Keys - {id}
              && (forall x :: x in r.ledger.tags ==> r.ledger.tags[x] == l.tags[x])
              && r.ledger.accounts == l.accounts && r.ledger.categories == l.categories
              && r.ledger.transactions == l.transactions
  {
    match Delete(l.tags, id)
    case Err(_) => Response(l, Err(HttpError(400, TagNotFound)))
    case Ok(rows) => Response(l.(tags := rows), Ok(()))
  }
}

=== FILE: transactions.dfy ===
/** The `/transaction` routes that write: create one transaction, and
    delete a batch of them one id at a time. */
module TransactionRoutes {
  import opened Results
  import opened Errors
  import opened Triggers
  import opened Store
  import Maps
  import KeyedStore

  /** `list_transactions`: every row once; the query has no ORDER BY, so
      no order is promised. */
  method ListTransactions(l: Ledger) returns (s: seq<(int, Transaction)>)
    ensures KeyedStore.Enumerates(s, l.transactions)
  {
    s := KeyedStore.ListAll(l.transactions);
  }

  /** `create_transaction`: stores the payload's account_id, to_account_id,
      category_id, transaction_type, date, amount, to_amount and description
      as a new row; the insert trigger applies its balance effect. No
      referenced row is checked first, and with foreign keys not enforced
      nothing can fail. */
  function CreateTransaction(l: Ledger, t: Transaction): (r: Response<(int, Transaction)>)
    ensures r.result.Ok?
    ensures var id := r.result.value.0;
            && id !in l.transactions
            && r.result.value.1 == t
            && r.ledger.transactions == l.transactions[id := t]
    ensures r.ledger.categories == l.categories && r.ledger.tags == l.tags
    ensures SameAccountsButBalance(l.accounts, r.ledger.accounts)
    ensures !RowUnrecognised(l, t) ==> forall x :: x in l.accounts ==>
              r.ledger.accounts[x].balance == l.accounts[x].balance + Contribution(t, x)
    ensures RowUnrecognised(l, t) ==> r.ledger.accounts == l.accounts
  {
    var (id, l1) := InsertRow(l, t);
    Response(l1, Ok((id, t)))
  }

  // ---------------------------------------------------------------------
  // Reference definitions for a batch delete, position by position
  // ---------------------------------------------------------------------

  /** The ids the batch reports as not found: every position whose id is
      not in the table, or was already met earlier in the batch. */
  function Missed(ids: seq<int>, present: set<int>): (r: seq<int>)
    decreases |ids|
  {
    if |ids| == 0 then []
    else
      var last := ids[|ids| - 1];
      var init := ids[..|ids| - 1];
      Missed(init, present) + (if last !in present || last in init then [last] else [])
  }

  /** The ids the batch deletes: the first occurrence of each id that is in
      the table, in batch order. */
  function Hits(ids: seq<int>, present: set<int>): (r: seq<int>)
    decreases |ids|
  {
    if |ids| == 0 then []
    else
      var last := ids[|ids| - 1];
      var init := ids[..|ids| - 1];
      Hits(init, present) + (if last in present && last !in init then [last] else [])
  }

  /** What the rows with ids `hits` together contribute to account `x`. */
  function Withdrawn(rows: map<int, Transaction>, hits: seq<int>, x: AccountId): (r: int)
    requires forall id :: id in hits ==> id in rows
    decreases |hits|
  {
    if |hits| == 0 then 0
    else
      var init := hits[..|hits| - 1];
      var last := hits[|hits| - 1];
      assert hits == init + [last];
      Withdrawn(rows, init, x) + Contribution(rows[last], x)
  }

  lemma WithdrawnStep(rows: map<int, Transaction>, hits: seq<int>, id: int, x: AccountId)
    requires forall h :: h in hits ==> h in rows
    requires id in rows
    ensures forall h :: h in hits + [id] ==> h in rows
    ensures Withdrawn(rows, hits + [id], x) == Withdrawn(rows, hits, x) + Contribution(rows[id], x)
  {
    assert (hits + [id])[..|hits|] == hits;
  }

  /** Every position of the batch is either deleted or skipped. */
  lemma {:induction false} HitsAndMissedSplitTheBatch(ids: seq<int>, present: set<int>)
    ensures |Hits(ids, present)| + |Missed(ids, present)| == |ids|
    ensures forall id :: id in Hits(ids, present) <==> id in present && id in ids
    ensures forall i, j :: 0 <= i < j < |Hits(ids, present)| ==> Hits(ids, present)[i] != Hits(ids, present)[j]
    ensures forall id :: id in ids && id !in present ==> id in Missed(ids, present)
    decreases |ids|
  {
    if |ids| > 0 {
      var init := ids[..|ids| - 1];
      var last := ids[|ids| - 1];
      HitsAndMissedSplitTheBatch(init, present);
      assert ids == init + [last];
      assert forall id :: id in ids <==> id in init || id == last;
    }
  }

  /** An id repeated in the batch is deleted at its first occurrence and
      reported as not found at the later one. */
  lemma {:induction false} RepeatedIdIsSkipped(ids: seq<int>, present: set<int>, a: nat, b: nat)
    requires a < b < |ids| && ids[a] == ids[b]
    ensures ids[b] in Missed(ids, present)
    decreases |ids|
  {
    var init := ids[..|ids| - 1];
    if b == |ids| - 1 {
      assert init[a] == ids[a];
    } else {
      RepeatedIdIsSkipped(init, present, a, b);
    }
  }

  /** One more position of the batch, holding an id met for the first time
      that is in the table: it is deleted. */
  lemma HitStep(ids: seq<int>, i: nat, present: set<int>)
    requires i < |ids| && ids[i] in present && ids[i] !in ids[..i]
    ensures Hits(ids[..i + 1], present) == Hits(ids[..i], present) + [ids[i]]
    ensures Missed(ids[..i + 1], present) == Missed(ids[..i], present)
  {
    assert ids[..i + 1][..i] == ids[..i];
  }

  /** One more position of the batch, holding an id not in the table or met
      before: it is skipped. */
  lemma MissStep(ids: seq<int>, i: nat, present: set<int>)
    requires i < |ids| && (ids[i] !in present || ids[i] in ids[..i])
    ensures Hits(ids[..i + 1], present) == Hits(ids[..i], present)
    ensures Missed(ids[..i + 1], present) == Missed(ids[..i], present) + [ids[i]]
  {
    assert ids[..i + 1][..i] == ids[..i];
  }

  lemma WithoutStep(rows: map<int, Transaction>, ids: seq<int>, i: nat)
    requires i < |ids|
    ensures Without(rows, ids[..i + 1]) == Without(rows, ids[..i]) - {ids[i]}
  {
    assert ids[..i + 1] == ids[..i] + [ids[i]];
    Maps.SameMap(Without(rows, ids[..i + 1]), Without(rows, ids[..i]) - {ids[i]});
  }

  /** Only rows of the table are ever deleted. */
  lemma HitsAreRowsAlways(l: Ledger, ids: seq<int>)
    ensures HitsAreRows(l, ids)
  {
    HitsAndMissedSplitTheBatch(ids, l.transactions.Keys);
  }

  /** No row named in the batch would make the delete trigger abort. */
  predicate NoAbortIn(l: Ledger, ids: seq<int>)
  {
    forall id :: id in ids && id in l.transactions ==> !RowUnrecognised(l, l.transactions[id])
  }

  /** Position `k` of the batch names a row the delete trigger would abort
      on. */
  predicate AbortsAt(l: Ledger, ids: seq<int>, k: nat)
  {
    k < |ids| && ids[k] in l.transactions && RowUnrecognised(l, l.transactions[ids[k]])
  }

  /** The first position of the batch whose id names a row the delete
      trigger would abort on; earlier occurrences of that id would abort
      too, so it is also that id's first occurrence. */
  ghost function FirstAbort(l: Ledger, ids: seq<int>): (pos: nat)
    requires !NoAbortIn(l, ids)
    ensures AbortsAt(l, ids, pos)
    ensures forall k: nat :: k < pos ==> !AbortsAt(l, ids, k)
  {
    FirstAbortExists(l, ids);
    var pos: nat :| AbortsAt(l, ids, pos) && forall k: nat :: k < pos ==> !AbortsAt(l, ids, k);
    pos
  }

  lemma {:induction false} FirstAbortExists(l: Ledger, ids: seq<int>)
    requires !NoAbortIn(l, ids)
    ensures exists pos: nat :: AbortsAt(l, ids, pos) && forall k: nat :: k < pos ==> !AbortsAt(l, ids, k)
    decreases |ids|
  {
    var last := |ids| - 1;
    var init := ids[..last];
    if NoAbortIn(l, init) {
      assert ids == init + [ids[last]];
      assert AbortsAt(l, ids, last);
      forall k: nat | k < last ensures !AbortsAt(l, ids, k) {
        assert ids[k] == init[k];
      }
    } else {
      FirstAbortExists(l, init);
      var pos: nat :| AbortsAt(l, init, pos) && forall k: nat :: k < pos ==> !AbortsAt(l, init, k);
      assert AbortsAt(l, ids, pos);
      forall k: nat | k < pos ensures !AbortsAt(l, ids, k) {
        assert !AbortsAt(l, init, k);
      }
    }
  }

  /** The table after deleting every id of `ids` that it holds. */
  function Without(rows: map<int, Transaction>, ids: seq<int>): (r: map<int, Transaction>)
  {
    map id | id in rows && id !in ids :: rows[id]
  }

  /** `delete_transactions`: for each id in order, a missing id is appended
      to the skipped list and the loop goes on; an existing row is deleted
      and committed on its own, reversing its balance effect. After the
      loop, a non-empty skipped list raises an error, without undoing the
      deletions. A delete trigger abort stops the loop with the earlier
      deletions kept. */
  method DeleteTransactions(l: Ledger, ids: seq<int>) returns (r: Response<()>)
    ensures r.ledger.categories == l.categories && r.ledger.tags == l.tags
    ensures SameAccountsButBalance(l.accounts, r.ledger.accounts)
    ensures NoAbortIn(l, ids) ==>
              && r.ledger.transactions == Without(l.transactions, ids)
              && (r.result.Ok? <==> Missed(ids, l.transactions.Keys) == [])
              && (r.result.Err? ==> r.result.error == TransactionsNotFound(400, Missed(ids, l.transactions.Keys)))
    ensures NoAbortIn(l, ids) ==>
              HitsAreRows(l, ids) &&
              forall x :: x in l.accounts ==>
                r.ledger.accounts[x].balance
                == l.accounts[x].balance - Withdrawn(l.transactions, Hits(ids, l.transactions.Keys), x)
    ensures !NoAbortIn(l, ids) ==>
              && r.result.Err? && r.result.error.Aborted?
              && r.ledger.transactions == Without(l.transactions, ids[..FirstAbort(l, ids)])
    ensures !NoAbortIn(l, ids) ==>
              HitsAreRows(l, ids[..FirstAbort(l, ids)]) &&
              forall x :: x in l.accounts ==>
                r.ledger.accounts[x].balance
                == l.accounts[x].balance - Withdrawn(l.transactions, Hits(ids[..FirstAbort(l, ids)], l.transactions.Keys), x)
  {
    var cur, skipped, abort := DeleteEach(l, ids);
    if abort.Some? {
      return Response(cur, Err(abort.value));
    }
    assert ids[..|ids|] == ids;
    if |skipped| > 0 {
      r := Response(cur, Err(TransactionsNotFound(400, skipped)));
    } else {
      r := Response(cur, Ok(()));
    }
  }

  /** The loop over the batch: each id either lands in `skipped` or has its
      row deleted and committed; a delete the trigger aborts ends the loop
      with that error, after `i` positions. */
  method DeleteEach(l: Ledger, ids: seq<int>) returns (cur: Ledger, skipped: seq<int>, abort: Option<Failure>)
    ensures abort.None? ==> DeletedUpTo(l, ids, |ids|, cur, skipped)
    ensures abort.Some? ==>
              && abort.value.Aborted?
              && !NoAbortIn(l, ids)
              && DeletedUpTo(l, ids, FirstAbort(l, ids), cur, skipped)
  {
    cur := l;
    skipped := [];
    var i := 0;
    while i < |ids|
      invariant i <= |ids|
      invariant DeletedUpTo(l, ids, i, cur, skipped)
    {
      var id := ids[i];
      if id !in cur.transactions {
        SkipStep(l, ids, i, cur, skipped);
        skipped := skipped + [id];
      } else {
        var d := DeleteRow(cur, id);
        if d.Err? {
          AbortStep(l, ids, i, cur, skipped);
          return cur, skipped, Some(d.error);
        }
        DeleteStep(l, ids, i, cur, skipped);
        cur := d.value;
      }
      i := i + 1;
    }
    abort := None;
  }

  /** After the first `i` ids of the batch: the table has lost exactly the
      rows they name, every balance has given back those rows'
      contributions, none of them made the trigger abort, and `skipped`
      lists the positions reported as not found. */
  predicate DeletedUpTo(l: Ledger, ids: seq<int>, i: nat, cur: Ledger, skipped: seq<int>)
    requires i <= |ids|
  {
    && cur.categories == l.categories && cur.tags == l.tags
    && SameAccountsButBalance(l.accounts, cur.accounts)
    && cur.transactions == Without(l.transactions, ids[..i])
    && skipped == Missed(ids[..i], l.transactions.Keys)
    && NoAbortIn(l, ids[..i])
    && HitsAreRows(l, ids[..i])
    && forall x :: x in l.accounts ==>
         cur.accounts[x].balance
         == l.accounts[x].balance - Withdrawn(l.transactions, Hits(ids[..i], l.transactions.Keys), x)
  }

  /** An id the table no longer holds is appended to `skipped`. */
  lemma SkipStep(l: Ledger, ids: seq<int>, i: nat, cur: Ledger, skipped: seq<int>)
    requires i < |ids| && DeletedUpTo(l, ids, i, cur, skipped)
    requires ids[i] !in cur.transactions
    ensures DeletedUpTo(l, ids, i + 1, cur, skipped + [ids[i]])
  {
    var present := l.transactions.Keys;
    WithoutStep(l.transactions, ids, i);
    HitsAreRowsAlways(l, ids[..i + 1]);
    assert ids[..i + 1] == ids[..i] + [ids[i]];
    MissStep(ids, i, present);
  }

  /** An id the table still holds is deleted, and gives back its row's
      contribution to every balance. */
  lemma DeleteStep(l: Ledger, ids: seq<int>, i: nat, cur: Ledger, skipped: seq<int>)
    requires i < |ids| && DeletedUpTo(l, ids, i, cur, skipped)
    requires ids[i] in cur.transactions && DeleteRow(cur, ids[i]).Ok?
    ensures DeletedUpTo(l, ids, i + 1, DeleteRow(cur, ids[i]).value, skipped)
  {
    var present := l.transactions.Keys;
    var id := ids[i];
    var next := DeleteRow(cur, id).value;
    WithoutStep(l.transactions, ids, i);
    HitsAreRowsAlways(l, ids[..i + 1]);
    assert ids[..i + 1] == ids[..i] + [id];
    assert !RowUnrecognised(l, l.transactions[id]) by {
      assert BalancesOf(cur.accounts).Keys == BalancesOf(l.accounts).Keys;
    }
    HitStep(ids, i, present);
    var h := Hits(ids[..i], present);
    forall x | x in l.accounts
      ensures next.accounts[x].balance == l.accounts[x].balance - Withdrawn(l.transactions, h + [id], x)
    {
      WithdrawnStep(l.transactions, h, id, x);
    }
  }

  /** A delete the trigger aborts happens at the first position of the
      batch that names a row of an unrecognised type. */
  lemma AbortStep(l: Ledger, ids: seq<int>, i: nat, cur: Ledger, skipped: seq<int>)
    requires i < |ids| && DeletedUpTo(l, ids, i, cur, skipped)
    requires ids[i] in cur.transactions && DeleteRow(cur, ids[i]).Err?
    ensures !NoAbortIn(l, ids)
    ensures FirstAbort(l, ids) == i
  {
    assert BalancesOf(cur.accounts).Keys == BalancesOf(l.accounts).Keys;
    assert cur.transactions[ids[i]] == l.transactions[ids[i]];
    assert RowUnrecognised(l, l.transactions[ids[i]]);
    assert ids[i] in ids;
    var j := FirstAbort(l, ids);
    assert AbortsAt(l, ids, i);
    assert i <= j by {
      if j < i {
        NoAbortAt(l, ids[..i], ids[j]);
      }
    }
  }

  lemma NoAbortAt(l: Ledger, ids: seq<int>, id: int)
    requires NoAbortIn(l, ids) && id in ids && id in l.transactions
    ensures !RowUnrecognised(l, l.transactions[id])
  {
  }

  /** Every id the batch deletes names a row of the table. */
  predicate HitsAreRows(l: Ledger, ids: seq<int>)
  {
    forall id :: id in Hits(ids, l.transactions.Keys) ==> id in l.transactions
  }
}

=== FILE: trigger_laws.dfy ===
/** Properties relating the four triggers to each other: delete undoes
    insert, and an UPDATE of a row is a DELETE of the old row followed by an
    INSERT of the new one, whichever update trigger fires first. */
module TriggerLaws {
  import opened Results
  import opened Triggers
  import opened Maps

  /** Inserting a row and then deleting it restores every balance; when the
      source account exists and the type is unrecognised, the insert changed
      nothing and the delete aborts. */
  lemma DeleteUndoesInsert(b: Balances, t: Transaction)
    ensures !Unrecognised(b, t) ==> DeleteTrigger(InsertTrigger(b, t), t) == Ok(b)
    ensures Unrecognised(b, t) ==> InsertTrigger(b, t) == b && DeleteTrigger(b, t).Err?
  {
    var r := InsertTrigger(b, t);
    if !Unrecognised(b, t) {
      assert !Unrecognised(r, t);
      var d := DeleteTrigger(r, t);
      SameMap(d.value, b);
    }
  }

  /** An unrecognised `transaction_type` on an existing source account: the
      insert leaves every balance as it was (destination leg included),
      while a delete of that row and any update from or to it abort. */
  lemma UnrecognisedType(b: Balances, t: Transaction, other: Transaction)
    requires Unrecognised(b, t)
    ensures InsertTrigger(b, t) == b
    ensures DeleteTrigger(b, t).Err?
    ensures UpdateTriggers(b, t, other).Err?
    ensures UpdateTriggers(b, other, t).Err?
  {
  }

  /** Same source account: for each of the nine (old, new) pairs of
      recognised types, the source balance is the old effect reversed and
      then the new one applied, and no other balance moves. */
  lemma UpdateSameAccount(b: Balances, o: Transaction, n: Transaction)
    requires o.accountId == n.accountId
    requires !o.txType.Unknown? && !n.txType.Unknown?
    ensures UpdateSourceTrigger(b, o, n)
            == Ok(Credit(Credit(b, o.accountId, -SourceEffect(o)), n.accountId, SourceEffect(n)))
  {
    var r := UpdateSourceTrigger(b, o, n);
    SameMap(r.value, Credit(Credit(b, o.accountId, -SourceEffect(o)), n.accountId, SourceEffect(n)));
  }

  /** Different source accounts: the old account gets the old effect
      reversed, the new account the new effect, and no other balance moves;
      an account that does not exist is left alone, whatever the type. */
  lemma UpdateDifferentAccount(b: Balances, o: Transaction, n: Transaction)
    requires o.accountId != n.accountId
    requires !Unrecognised(b, o) && !Unrecognised(b, n)
    ensures UpdateSourceTrigger(b, o, n)
            == Ok(Credit(Credit(b, o.accountId, -SourceEffect(o)), n.accountId, SourceEffect(n)))
  {
    var r := UpdateSourceTrigger(b, o, n);
    SameMap(r.value, Credit(Credit(b, o.accountId, -SourceEffect(o)), n.accountId, SourceEffect(n)));
  }

  /** The main theorem: the two AFTER UPDATE triggers together act as the
      DELETE trigger on the old row followed by the INSERT trigger on the new
      one, on every account. The update aborts when the delete would, and in
      addition when the new row's type is unrecognised on an existing
      account (where a plain insert would be ignored instead). */
  lemma UpdateIsDeleteThenInsert(b: Balances, o: Transaction, n: Transaction)
    ensures DeleteTrigger(b, o).Err? || Unrecognised(b, n) ==> UpdateTriggers(b, o, n).Err?
    ensures DeleteTrigger(b, o).Ok? && !Unrecognised(b, n) ==>
              UpdateTriggers(b, o, n) == Ok(InsertTrigger(DeleteTrigger(b, o).value, n))
  {
    var u := UpdateTriggers(b, o, n);
    var d := DeleteTrigger(b, o);
    if d.Ok? && !Unrecognised(b, n) {
      assert u.Ok?;
      assert !Unrecognised(d.value, n);
      var i := InsertTrigger(d.value, n);
      forall x | x in b
        ensures u.value[x] == i[x]
      {
        assert i[x] == b[x] - Contribution(o, x) + Contribution(n, x);
      }
      SameMap(u.value, i);
    }
  }

  /** The outcome of an UPDATE does not depend on which of the two update
      triggers SQLite runs first. */
  lemma UpdateTriggerOrderIrrelevant(b: Balances, o: Transaction, n: Transaction)
    ensures UpdateTriggers(b, o, n) == UpdateTriggersToAccountFirst(b, o, n)
  {
    var t := UpdateToAccountTrigger(b, o, n);
    var s := UpdateSourceTrigger(b, o, n);
    var s' := UpdateSourceTrigger(t, o, n);
    assert UpdateTriggersToAccountFirst(b, o, n) == s';
    assert s.Err? <==> s'.Err? by {
      assert Unrecognised(t, o) == Unrecognised(b, o) && Unrecognised(t, n) == Unrecognised(b, n);
    }
    if s.Ok? {
      var u := UpdateToAccountTrigger(s.value, o, n);
      assert UpdateTriggers(b, o, n) == Ok(u);
      forall x | x in u
        ensures u[x] == s'.value[x]
      {
      }
      SameMap(u, s'.value);
    } else {
      SourceAbortIgnoresBalances(b, t, o, n);
    }
  }

  /** Whether, and with which message, the source-leg trigger aborts
      depends only on which accounts exist, not on their balances. */
  lemma SourceAbortIgnoresBalances(b: Balances, c: Balances, o: Transaction, n: Transaction)
    requires b.Keys == c.Keys
    ensures UpdateSourceTrigger(b, o, n).Err? ==> UpdateSourceTrigger(c, o, n) == UpdateSourceTrigger(b, o, n)
  {
    if UpdateNewAccount(b, o, n).Ok? {
      assert UpdateNewAccount(b, o, n).value.Keys == UpdateNewAccount(c, o, n).value.Keys;
    }
  }

  /** The money fields of a row: an UPDATE that changes none of them (only
      the date, category or description, say) moves no balance. */
  predicate SameMoney(o: Transaction, n: Transaction)
  {
    o.accountId == n.accountId && o.toAccountId == n.toAccountId && o.txType == n.txType
    && o.amount == n.amount && o.toAmount == n.toAmount
  }

  lemma UpdateWithoutMoneyChange(b: Balances, o: Transaction, n: Transaction)
    requires SameMoney(o, n)
    ensures !Unrecognised(b, o) ==> UpdateTriggers(b, o, n) == Ok(b)
    ensures Unrecognised(b, o) ==> UpdateTriggers(b, o, n).Err?
  {
    var u := UpdateTriggers(b, o, n);
    if u.Ok? {
      SameMap(u.value, b);
    }
  }
}

=== FILE: triggers.dfy ===
/** The balance engine: the four SQLite trigger bodies that keep each
    account's stored balance in step with the rows of the Transactions table.
    Each trigger is a pure function from the balances before the triggering
    statement to the balances after it. Money is in integer cents, where the
    triggers' ROUND(..., 2) is the identity. */
module Triggers {
  import opened Results
  import opened Errors

  type AccountId = int

  /** The `balance` column of the Accounts table, keyed by account id. */
  type Balances = map<AccountId, int>

  /** A `transaction_type` string none of the triggers' WHEN arms names. */
  type OtherTypeName = s: string | s != "Withdrawal" && s != "Deposit" && s != "Transfer" witness ""

  /** `transaction_type` is a free string column; only three values are
      recognised by the triggers, every other string is `Unknown`. */
  datatype TxType = Withdrawal | Deposit | Transfer | Unknown(name: OtherTypeName)

  /** The string stored in the `transaction_type` column. */
  function TypeName(t: TxType): (s: string)
    ensures t.Unknown? <==> s != "Withdrawal" && s != "Deposit" && s != "Transfer"
  {
    match t
    case Withdrawal => "Withdrawal"
    case Deposit => "Deposit"
    case Transfer => "Transfer"
    case Unknown(name) => name
  }

  /** How the triggers read the column: by comparing it with the three
      literals of their WHEN arms. */
  function ReadType(s: string): (t: TxType)
    ensures TypeName(t) == s
    ensures t.Unknown? <==> s != "Withdrawal" && s != "Deposit" && s != "Transfer"
  {
    if s == "Withdrawal" then Withdrawal
    else if s == "Deposit" then Deposit
    else if s == "Transfer" then Transfer
    else Unknown(s)
  }

  /** Every type value is read back from its own column string. */
  lemma ReadTypeName(t: TxType)
    ensures ReadType(TypeName(t)) == t
  {
  }

  /** One row of the Transactions table. `amount` is NOT NULL; `to_amount`
      and `to_account_id` may be NULL. */
  datatype Transaction = Transaction(
    accountId: AccountId,
    toAccountId: Option<AccountId>,
    categoryId: int,
    txType: TxType,
    date: string,
    amount: int,
    toAmount: Option<int>,
    description: Option<string>)

  /** `UPDATE Accounts SET balance = balance + delta WHERE id = a`:
      only an existing row changes. */
  function Credit(b: Balances, a: AccountId, delta: int): (r: Balances)
    ensures r.Keys == b.Keys
    ensures a in b ==> r[a] == b[a] + delta
    ensures forall x :: x in b && x != a ==> r[x] == b[x]
  {
    if a in b then b[a := b[a] + delta] else b
  }

  /** What the destination leg moves: `to_amount` when it is non-NULL and
      non-zero, `amount` otherwise. */
  function LegAmount(t: Transaction): (r: int)
  {
    if t.toAmount.Some? && t.toAmount.value != 0 then t.toAmount.value else t.amount
  }

  // ---------------------------------------------------------------------
  // Reference definition: what one transaction contributes to one account.
  // ---------------------------------------------------------------------

  /** The signed effect on the source account: Withdrawal and Transfer debit
      `amount`, Deposit credits it, an unrecognised type moves nothing. */
  function SourceEffect(t: Transaction): (r: int)
  {
    match t.txType
    case Withdrawal => -t.amount
    case Transfer => -t.amount
    case Deposit => t.amount
    case Unknown(_) => 0
  }

  /** The part of account `x`'s balance that transaction `t` accounts for:
      its source effect when `x` is the source account plus its destination
      leg when `x` is the destination account (both when they coincide). */
  function Contribution(t: Transaction, x: AccountId): (r: int)
  {
    (if x == t.accountId then SourceEffect(t) else 0)
    + (if t.toAccountId == Some(x) then LegAmount(t) else 0)
  }

  /** RAISE(IGNORE) or RAISE(ABORT) in the source-leg statement is only
      reached when the source row exists and the type is not recognised. */
  predicate Unrecognised(b: Balances, t: Transaction)
  {
    t.accountId in b && t.txType.Unknown?
  }

  // ---------------------------------------------------------------------
  // The triggers as written.
  // ---------------------------------------------------------------------

  /** Update_Balance_On_Transaction_Insert. The source leg debits Withdrawal
      and Transfer and credits Deposit; an unrecognised type hits
      RAISE(IGNORE), which ends the trigger program before the destination
      leg. The destination leg is keyed on `to_account_id` alone, whatever
      the type. The trigger never aborts. */
  function InsertTrigger(b: Balances, t: Transaction): (r: Balances)
    ensures r.Keys == b.Keys
    ensures Unrecognised(b, t) ==> r == b
    ensures !Unrecognised(b, t) ==>
              forall x :: x in b ==> r[x] == b[x] + Contribution(t, x)
  {
    if Unrecognised(b, t) then b
    else
      var b1 :=
        if t.txType == Withdrawal || t.txType == Transfer then Credit(b, t.accountId, -t.amount)
        else if t.txType == Deposit then Credit(b, t.accountId, t.amount)
        else b;
      match t.toAccountId
      case Some(to) => Credit(b1, to, LegAmount(t))
      case None => b1
  }

  /** Update_Balance_On_Transaction_Delete: the source leg undoes the
      insert's debit or credit, and an unrecognised type aborts the DELETE;
      the destination leg takes back what the insert gave. */
  function DeleteTrigger(b: Balances, t: Transaction): (r: Result<Balances, Failure>)
    ensures r.Err? <==> Unrecognised(b, t)
    ensures r.Ok? ==> r.value.Keys == b.Keys
    ensures r.Ok? ==> forall x :: x in b ==> r.value[x] == b[x] - Contribution(t, x)
  {
    if Unrecognised(b, t) then Err(Aborted("ELSE UPDATE Accounts ON DELETE"))
    else
      var b1 :=
        if t.txType == Withdrawal || t.txType == Transfer then Credit(b, t.accountId, t.amount)
        else if t.txType == Deposit then Credit(b, t.accountId, -t.amount)
        else b;
      match t.toAccountId
      case Some(to) => Ok(Credit(b1, to, -LegAmount(t)))
      case None => Ok(b1)
  }

  /** The first statement of Update_Balance_On_Transaction_Update, on the
      row `new.account_id`. When the account is unchanged, the six WHEN arms
      cover all nine recognised (new, old) type pairs, each reversing the old
      amount and applying the new one in a single assignment; only a pair
      with an unrecognised type aborts. When it changed, the new account gets
      only the new effect. */
  function UpdateNewAccount(b: Balances, o: Transaction, n: Transaction): (r: Result<Balances, Failure>)
    ensures r.Err? <==> n.accountId in b && (n.txType.Unknown? || (n.accountId == o.accountId && o.txType.Unknown?))
    ensures r.Ok? ==> r.value.Keys == b.Keys
    ensures r.Ok? ==> forall x :: x in b ==>
              r.value[x] == b[x]
                            + (if x != n.accountId then 0
                               else if n.accountId == o.accountId then SourceEffect(n) - SourceEffect(o)
                               else SourceEffect(n))
  {
    var a := n.accountId;
    if a !in b then Ok(b)
    else if n.accountId == o.accountId then
      var oldDebit := o.txType == Withdrawal || o.txType == Transfer;
      var oldCredit := o.txType == Deposit;
      if n.txType == Withdrawal && oldDebit then Ok(b[a := (b[a] + o.amount) - n.amount])
      else if n.txType == Withdrawal && oldCredit then Ok(b[a := (b[a] - o.amount) - n.amount])
      else if n.txType == Deposit && oldDebit then Ok(b[a := (b[a] + o.amount) + n.amount])
      else if n.txType == Deposit && oldCredit then Ok(b[a := (b[a] - o.amount) + n.amount])
      else if n.txType == Transfer && oldDebit then Ok(b[a := (b[a] + o.amount) - n.amount])
      else if n.txType == Transfer && oldCredit then Ok(b[a := (b[a] - o.amount) - n.amount])
      else Err(Aborted("-- Update new.account if new.account_id EQUAL old.account_id"))
    else
      if n.txType == Withdrawal || n.txType == Transfer then Ok(b[a := b[a] - n.amount])
      else if n.txType == Deposit then Ok(b[a := b[a] + n.amount])
      else Err(Aborted("-- Update new.account if new.account_id NOT EQUAL old.account_id"))
  }

  /** The second statement, on the row `old.account_id`: when the account
      changed it reverses the old effect there (an unrecognised old type
      aborts); when it did not, RAISE(IGNORE) ends the trigger program. */
  function UpdateOldAccount(b: Balances, o: Transaction, n: Transaction): (r: Result<Balances, Failure>)
    ensures r.Err? <==> o.accountId in b && n.accountId != o.accountId && o.txType.Unknown?
    ensures r.Ok? ==> r.value.Keys == b.Keys
    ensures r.Ok? ==> forall x :: x in b ==>
              r.value[x] == b[x] - (if x == o.accountId && n.accountId != o.accountId then SourceEffect(o) else 0)
  {
    var a := o.accountId;
    if a !in b then Ok(b)
    else if n.accountId != o.accountId then
      if o.txType == Withdrawal || o.txType == Transfer then Ok(b[a := b[a] + o.amount])
      else if o.txType == Deposit then Ok(b[a := b[a] - o.amount])
      else Err(Aborted("Update old.account if new.account_id NOT EQUAL old.account_id"))
    else Ok(b)
  }

  /** Update_Balance_On_Transaction_Update: the source legs of an UPDATE of
      one Transactions row from `o` to `n`. On every account it reverses the
      old source effect and applies the new one, and it aborts exactly when
      a source row that exists carries an unrecognised type. */
  function UpdateSourceTrigger(b: Balances, o: Transaction, n: Transaction): (r: Result<Balances, Failure>)
    ensures r.Err? <==> Unrecognised(b, o) || Unrecognised(b, n)
    ensures r.Ok? ==> r.value.Keys == b.Keys
    ensures r.Ok? ==> forall x :: x in b ==>
              r.value[x] == b[x]
                            - (if x == o.accountId then SourceEffect(o) else 0)
                            + (if x == n.accountId then SourceEffect(n) else 0)
  {
    match UpdateNewAccount(b, o, n)
    case Err(e) => Err(e)
    case Ok(b1) => UpdateOldAccount(b1, o, n)
  }

  /** Update_ToAccount_Balance: the new destination account gains the new
      leg and the old destination account loses the old leg; nothing
      happens on a side whose `to_account_id` is NULL. The ABORT branches
      need `amount` to be NULL, which the schema rules out, so the trigger
      never aborts. */
  function UpdateToAccountTrigger(b: Balances, o: Transaction, n: Transaction): (r: Balances)
    ensures r.Keys == b.Keys
    ensures forall x :: x in b ==>
              r[x] == b[x]
                      + (if n.toAccountId == Some(x) then LegAmount(n) else 0)
                      - (if o.toAccountId == Some(x) then LegAmount(o) else 0)
  {
    var b1 :=
      match n.toAccountId
      case Some(to) => Credit(b, to, LegAmount(n))
      case None => b;
    match o.toAccountId
    case Some(to) => Credit(b1, to, -LegAmount(o))
    case None => b1
  }

  /** Both AFTER UPDATE triggers, the source-leg trigger first. An abort in
      either rolls back the whole UPDATE. */
  function UpdateTriggers(b: Balances, o: Transaction, n: Transaction): (r: Result<Balances, Failure>)
  {
    match UpdateSourceTrigger(b, o, n)
    case Err(e) => Err(e)
    case Ok(b1) => Ok(UpdateToAccountTrigger(b1, o, n))
  }

  /** Both AFTER UPDATE triggers, the to-account trigger first. */
  function UpdateTriggersToAccountFirst(b: Balances, o: Transaction, n: Transaction): (r: Result<Balances, Failure>)
  {
    var b1 := UpdateToAccountTrigger(b, o, n);
    UpdateSourceTrigger(b1, o, n)
  }
}
